=== FILE: README.md ===
# kitchen_sim: order valuation and shelf management, in Dafny

This project models the core of `kitchen_sim`, a simulator in which a
kitchen takes food orders, cooks them instantly, keeps them on shelves
while their value decays, and hands them to couriers. It covers:

- **Orders** (`order.dfy`, module `Orders`). An order is an immutable
  record. It has:
  - the validating factory `CreateOrder`;
  - the fulfillment and delivery time stamps;
  - the piecewise-linear decay `Value`, which is clamped at zero and cut
    off once whole seconds since fulfillment exceed the shelf life;
  - the re-baselining `MoveFrom`;
  - the `Expiry` deadline, capped at fulfillment plus shelf life.
- **Shelves** (`shelf.dfy`, module `Shelves`). A shelf is a
  capacity-bounded set of order ids with a stored decay modifier. It
  supports `AddOrder`, `RemoveOrder` and `AtCapacity`.
- **The kitchen** (`kitchen.dfy`, module `Kitchens`). The kitchen holds:
  - one shelf per temperature group, plus the overflow shelf;
  - the order index `orders`;
  - the shelf index `orderToShelf`.

  Its operations are `TakeOrder` (own shelf, else overflow, else overflow
  after `MakeOverflowRoom`), `MakeOverflowRoom` (move the first movable
  overflow order, else discard one), `PickupOrder` and `OrderValue`.
  - `kitchen_invariant.dfy` proves that the kitchen invariant holds of a
    new kitchen and is kept by every operation. The invariant says that
    shelved orders are indexed to their shelf, that the indexes agree,
    that no shelf is over capacity, and that the shelves keep the modifiers
    the constructor gave them. It also says that every held order is
    cooked, with a baseline value in [0, 1], and has not moved since
    cooking while it is indexed to overflow.
  - `kitchen_properties.dfy` proves what the code as written implies:
    - an expiry check can be refused;
    - an order's value depends on the kind of shelf it is indexed on, not
      on the modifier that shelf stores;
    - relocation raises value;
    - discarded orders stay indexed.
- **The courier** (`courier.dfy`, module `Couriers`). A courier holds at
  most one (order id, kitchen) pair and picks it up once.
- **Ingestion** (`simulation.dfy`, module `Simulation`). This covers:
  - the temperature-name mapping;
  - the SMALL/LARGE kitchen presets;
  - validating a batch of order records under the skip-or-abort policy;
  - the 2–6 second courier delay.
- **Scenarios** (`scenarios.dfy`, module `Scenarios`). These replay the
  repository's unit tests (model/order_test.cc, model/kitchen_test.cc and
  model/courier_test.cc) on the model, with each test's own orders.

How the program's types are represented:

- Times are `real` seconds on one absolute clock, and values are `real`.
  The whole-second cut-off (`absl::ToInt64Seconds`, applied to a
  non-negative duration) is `.Floor`.
- Thrown `std::invalid_argument` exceptions and null pointers become the
  `Result` and `Option` datatypes of `common.dfy`.
- Anything the program draws from the environment is an explicit
  parameter:
  - the iteration order of the overflow shelf's `unordered_set` is a
    sequence `enum` that enumerates it;
  - the random discard is an index `choice` into it;
  - the wall clock read by the relocation's `MoveFrom` is `now`;
  - the courier's random delay is `draw`.

The model follows the code as written, including these behaviours:

- Discarding an overflow order removes it from the overflow shelf only
  (model/kitchen.cc:183). The order keeps its entries in `orders` and
  `orderToShelf`, so it is still held, and a pickup while it is worth
  something still hands it over (`KitchenProperties.DiscardedOrderStaysIndexed`).
  The comment on `Courier::PickupCurrentOrder` (model/courier.h:31) gives
  a discarded order as one reason the pickup may return nullptr. In the
  code a discarded order yields nullptr only once it is worth nothing,
  like any other order.
- The expiry handler's own pickup is refused for every unmoved order decaying
  at rate 1 or more. Its value is already zero at the scheduled time, so
  `PickupOrder` returns nullptr and leaves the order where it is
  (`KitchenProperties.FreshOrderExpiryIsRefused`,
  `KitchenProperties.ScheduledExpiryCanBeRefused`). The comment "Let expiry
  handler clean up" (model/kitchen.cc:83) expects that handler to remove
  such orders, but it never does.
- The expiry check is scheduled with modifier 1 whatever the shelf
  (model/kitchen.cc:51), not with the modifier of the shelf the order was
  placed on.
- Only `OrderValue` applies modifier 2 on overflow and 1 elsewhere
  (model/kitchen.cc:102). The shelves themselves store 1 on overflow and 2
  on temperature shelves (model/kitchen.cc:18, 23), and `MakeOverflowRoom`
  snapshots with the stored overflow modifier (model/kitchen.cc:173).
- A pickup from an empty courier throws `std::invalid_argument`
  (model/courier.cc:13-16). It is modelled as that error.

## Model

| member | source | states |
|---|---|---|
| Orders.CreateOrder | model/order.cc:5-28 | Succeeds exactly when the id and name are non-empty, the temperature is known, and the shelf life and decay rate are non-negative. A created order carries the given fields and is unprocessed: no fulfillment, delivery or move time, and baseline 1.0, so its baseline lies in [0, 1] and it does not gain value. An empty id, or else an empty name, fails with its own message. |
| Orders.SetFulfillmentTime | model/order.h:62-65 | Sets both the fulfillment time and the last-move time to `t`. Identity, delivery time and baseline are unchanged. |
| Orders.SetDeliveryTime | model/order.h:70 | Sets the delivery time only. Identity, fulfillment, move time and baseline are unchanged. |
| Orders.Value | model/order.cc:47-67 | Never negative. Zero before fulfillment, before the fulfillment time, and once whole seconds since fulfillment exceed the shelf life. |
| Orders.MoveFrom | model/order.cc:42-45 | Keeps the identity, the fulfillment and delivery times and the well-formedness of the order. The last-move time becomes `t`. |
| Orders.Expiry | model/order.cc:69-74 | Never later than fulfillment plus shelf life. Equal to that cap when rate times modifier is zero. |
| Orders.PastShelfLifeStays | model/order.cc:52-56 | Once whole seconds since fulfillment exceed the shelf life, they do so at every later time. |
| Orders.UndecayingValue | model/order.cc:47-67 | With decay rate 0, the value is the baseline throughout the shelf-life window and zero outside it. |
| Orders.ValueNonIncreasing | model/order.cc:57-66 | Between moves and on one shelf, the value at a later time is at most the value at an earlier time. |
| Orders.ValueAtMostBaseline | model/order.cc:57-66 | From the last move on, the value never exceeds the baseline it restarted from. |
| Orders.MoveFromKeepsBound | model/order.cc:42-45 | Moving an order that has not moved since cooking, off a shelf with a non-negative modifier, keeps its baseline in [0, 1] and never raises it. |
| Orders.HigherModifierDecaysFaster | model/order.cc:58-62 | A larger modifier never gives a larger value. |
| Orders.HigherModifierDecaysStrictlyFaster | model/order.cc:58-66 | A larger modifier gives a strictly smaller value while the order is worth something and time has passed since the move. |
| Orders.MoveFromKeepsValue | model/order.cc:42-45 | Right after a move, the value under any modifier equals the value on the shelf left. |
| Orders.ValueAfterMove | model/order.cc:42-66 | After a move, the order decays at the new modifier from the value it had at the move, clamped at zero. |
| Orders.ValueZeroAtDecayDeadline | model/order.cc:58-73 | When the decay deadline is the smaller term, `Expiry` is that deadline and the value there is zero. |
| Orders.ValuePositiveAtCap | model/order.cc:52-73 | When the shelf-life cap is the smaller term, `Expiry` is the cap and the value there is positive. |
| Shelves.NewShelf | model/kitchen.h:36-39 | A new shelf is empty, within capacity, and stores the given capacity and modifier. |
| Shelves.AddOrder | model/kitchen.h:41-47 | Adds exactly when the size is below capacity. On success the set gains the id. On refusal the shelf is unchanged. Capacity and modifier never change, and the capacity bound is kept. |
| Shelves.RemoveOrder | model/kitchen.h:49 | The id is gone, every other id is kept, the size drops by one when the id was present, and an absent id changes nothing. |
| Shelves.RemoveOrderIdempotent | model/kitchen.h:49 | Removing twice is removing once. |
| Shelves.AddPresentOrder | model/kitchen.h:41-47 | Adding an id already on a shelf with room reports success and changes nothing. |
| Shelves.ApplyAllKeepsShelfInvariant | model/kitchen.h:41-59 | No sequence of adds and removes makes a shelf exceed its capacity or changes its capacity or modifier. |
| Kitchens.DefaultOptions | model/kitchen.h:22-31 | The default options are overflow 15 and 10 places for each of hot, cold and frozen. |
| Kitchens.NewKitchen | model/kitchen.cc:16-25 | A new kitchen keeps the invariant and has one empty shelf per configured temperature, with its capacity, and an empty overflow shelf with the overflow capacity. Its shelves store overflow modifier 1 and temperature modifier 2, so each stores the modifier valuation applies to the other kind of shelf. |
| Kitchens.OrderValue | model/kitchen.cc:93-104 | Never negative. Zero for an unknown id. Positive only for an id in both indexes. |
| KitchenProperties.OrderValueByShelf | model/kitchen.cc:98-103 | Under the invariant, an order on or indexed to the overflow shelf is valued at modifier 2, and one on or indexed to a temperature shelf at modifier 1. |
| KitchenProperties.OrderValueAtMostOne | model/kitchen.cc:93-104 | Under the invariant, a held order is worth at most 1 at any time from its last move on. An order still indexed to overflow is worth at most 1 at any time. |
| Kitchens.PickupOrder | model/kitchen.cc:76-91 | Returns nothing, leaving the kitchen unchanged, exactly when the id is unknown or its value is at most zero. Otherwise it returns the held order, removes it from both indexes and from its indexed shelf, and leaves every other shelf and the layout unchanged. |
| Kitchens.PlaceOrder | model/kitchen.cc:150-156 | Places exactly when the shelf is not at capacity. A placement adds the id to that shelf and points its index entry there. A refusal changes nothing. |
| Kitchens.OpenShelfAcceptsOrder | model/kitchen.cc:159-164 | A temperature group is among the open shelves exactly when placing an order on its shelf would succeed. |
| Kitchens.FirstMovable | model/kitchen.cc:166-178 | Finds the first position in the enumeration whose order can move to an open shelf. Returns none exactly when no position can. |
| Kitchens.MakeOverflowRoom | model/kitchen.cc:158-184 | Frees exactly one overflow place. If some overflow order could move, the first such order in the enumeration is relocated and re-baselined at `now`. Otherwise the order at `choice` is dropped from the overflow shelf only. |
| Kitchens.Placed | model/kitchen.cc:37-47 | Placing the new order never changes which ids are held. |
| Kitchens.TakeOrder | model/kitchen.cc:27-74 | Fails, naming the kitchen, exactly when there is no shelf for the order's temperature. Otherwise it records fulfillment and last-move time `at` and adds exactly the new id to the order index. It schedules expiry at `Expiry` with modifier 1, no later than `at` plus the shelf life. |
| KitchenInvariant.OnlyIndexedShelf | model/kitchen.h:109-117 | Under the invariant, an order on a shelf is held, indexed to that shelf, and on no other shelf. |
| KitchenInvariant.ShelvesDisjoint | model/kitchen.cc:150-156 | Under the invariant, no two shelves share an order. |
| KitchenInvariant.AdmitKeepsInv | model/kitchen.cc:37-72 | Placing a fresh cooked order on a shelf with room and indexing it keeps the invariant. The order then sits on that shelf alone. |
| KitchenInvariant.RelocationKeepsInv | model/kitchen.cc:169-175 | Moving an overflow order to its open temperature shelf keeps the invariant. |
| KitchenInvariant.DiscardKeepsInv | model/kitchen.cc:179-183 | Dropping an overflow order from the shelf alone keeps the invariant. |
| KitchenInvariant.MakeOverflowRoomKeepsInv | model/kitchen.cc:158-184 | `MakeOverflowRoom` keeps the invariant. |
| KitchenInvariant.TakeOrderPlacement | model/kitchen.cc:37-47 | The order is admitted to its own shelf when that has room. Otherwise it goes to overflow when that has room. Otherwise it goes to overflow after `MakeOverflowRoom`. |
| KitchenInvariant.TakeOrderKeepsInv | model/kitchen.cc:27-74 | For an order with a baseline in [0, 1] and a non-negative decay rate, as every order `CreateOrder` builds has, `TakeOrder` keeps the invariant and the layout. The new order is indexed and sits on exactly one shelf, its own temperature shelf or overflow. |
| KitchenInvariant.TakeOrderOnOwnShelf | model/kitchen.cc:36-39 | With room on its own shelf, the cooked order is added to that shelf and to both indexes, and nothing else changes. |
| KitchenInvariant.TakeOrderOnOverflow | model/kitchen.cc:40-46 | With its own shelf full and room on overflow, the cooked order is added to overflow and to both indexes, and nothing else changes. |
| KitchenInvariant.TakeOrderAfterRoom | model/kitchen.cc:40-46 | With both shelves full, the result is `MakeOverflowRoom`'s kitchen plus the cooked order on overflow and in both indexes. |
| KitchenInvariant.PickupOrderKeepsInv | model/kitchen.cc:76-91 | `PickupOrder` keeps the invariant. |
| KitchenInvariant.PickupIdempotent | model/kitchen.cc:76-91 | After a successful pickup, picking up the same id again returns nothing and changes nothing. |
| KitchenProperties.DecayedOrderIsRefused | model/kitchen.cc:76-85 | A held order whose decay deadline at modifier 1 precedes its shelf-life cap is refused, unchanged, by every pickup from its expiry on. |
| KitchenProperties.FreshOrderExpiryIsRefused | model/kitchen.cc:51-85 | An order cooked from full value, decaying at rate 1 or more and never moved, is refused, with the kitchen unchanged, by every pickup at or after its modifier-1 expiry. |
| KitchenProperties.ScheduledExpiryCanBeRefused | model/kitchen.cc:49-85 | For a new order decaying at rate 1 or more, the expiry check `TakeOrder` schedules, and any later pickup, leaves the unmoved order where it is. |
| KitchenProperties.FreshDecayDeadlineBinds | model/order.cc:69-74 | From full value at fulfillment, a decay rate of at least 1 reaches zero no later than the shelf-life cap. |
| KitchenProperties.ExpiryAtCapRemovesOrder | model/kitchen.cc:76-91 | When the shelf-life cap binds, a pickup at the expiry of an order on its temperature shelf hands it over and unindexes it. |
| KitchenProperties.RelocationRaisesValue | model/kitchen.cc:171-174 | A decaying order relocated off overflow gets a baseline strictly above the value `OrderValue` gave it just before, and that baseline is its value right after. |
| KitchenProperties.DiscardedOrderStaysIndexed | model/kitchen.cc:179-183 | A discarded order is on no shelf, yet still held and indexed to overflow. A pickup while it is worth something hands it over. |
| Couriers.AcceptOrder | model/courier.cc:5-8 | Always succeeds, and the courier then holds exactly the given pair, replacing any earlier one. |
| Couriers.PickupCurrentOrder | model/courier.cc:10-29 | Fails with the no-order error exactly when the courier holds nothing. Otherwise it calls the kitchen's pickup with the held id at `t` and is empty afterwards. It yields nothing exactly when the kitchen does, and otherwise the kitchen's order stamped with delivery time `t`. |
| Couriers.OnePickupPerAcceptance | model/courier.cc:10-29 | Accept then pick up succeeds. A second pickup without a new acceptance fails. |
| Couriers.NewCourierCannotPickUp | model/courier.h:23-36 | A new courier holds nothing, so a pickup fails. |
| Simulation.FromString | kitchen_sim_lib.cc:100-111 | Exactly "hot", "cold" and "frozen" map to the three groups. Every other string, capitalised ones included, maps to unknown. |
| Simulation.KitchenOptions | kitchen_sim_lib.h:48-64 | "SMALL" gives overflow 6 and 4 places per group. Every other size gives overflow 15 and 10 per group. |
| Simulation.CreateKitchen | kitchen_sim_lib.h:48-64 | Either preset builds an empty kitchen keeping the invariant, with shelves for exactly hot, cold and frozen and an overflow capacity of at least 1. |
| Simulation.PresetsCoverCreatedOrders | kitchen_sim_lib.h:48-64 | On a kitchen laid out by either preset, `TakeOrder` succeeds for every order `CreateOrder` accepts. |
| Simulation.UnknownTemperatureRejected | kitchen_sim_lib.cc:127-131 | A record whose temperature is not one of the three words is rejected. |
| Simulation.FirstInvalid | kitchen_sim_lib.cc:123-137 | Picks out the first record `CreateOrder` would reject: every record before it is valid, and it is invalid unless it is the end of the batch. |
| Simulation.IngestOrders | kitchen_sim_lib.cc:123-138 | When skipping, or when every record is valid, the result is exactly the valid records in input order. When aborting and some record is invalid, the result is the validation error of the first invalid record. |
| Simulation.ValidPrefixOrdersAreValid | kitchen_sim_lib.cc:123-137 | Every order kept is unprocessed and has valid fields, and no more orders are kept than records read. |
| Simulation.CourierArrivalTime | kitchen_sim_lib.cc:20-23 | The courier arrives a whole number of seconds, between 2 and 6, after `now`. |
| Scenarios.TestOrder | model/order_test.cc:7-11 | The test orders are exactly what `CreateOrder` returns for their fields. |
| Scenarios.Barebones | model/kitchen_test.cc:8-15 | The one-place-per-shelf test kitchen is empty and keeps the invariant. |
| Scenarios.InvalidArgumentsRejected | model/order_test.cc:13-28 | An empty id, an empty name, a negative shelf life and an unknown temperature are each rejected with their own message. |
| Scenarios.ValueBeforeCooking | model/order_test.cc:30-34 | An order that was never cooked is worth nothing. |
| Scenarios.ValueUndecaying | model/order_test.cc:36-42 | With no decay the value is 1 at second 300 of a 300-second shelf life and 0 at second 301. |
| Scenarios.ValueFuture | model/order_test.cc:44-51 | At rate 1 and shelf life 500, the value is 1 at fulfillment and 0.6 after 200 s. |
| Scenarios.ValueMovedToOverflow | model/order_test.cc:53-62 | Worth 0.6 at 200 s. Moved at 200 s from modifier 1 and then decaying at 2, the order is worthless at 350 s. |
| Scenarios.ValueMovedFromOverflow | model/order_test.cc:64-73 | Worth 0.6 at 100 s under modifier 2, moved, then worthless at 400 s under modifier 1. |
| Scenarios.ValueFarFuture | model/order_test.cc:75-80 | Long past its shelf life the value is zero. |
| Scenarios.FreshValue | model/order.cc:57-66 | An order cooked at `t0` and left on one shelf for `d` seconds within its shelf life is worth 1 minus the modified decay over `d`. |
| Scenarios.TakeTea | model/kitchen_test.cc:36-49 | The first cold order lands on the cold shelf. |
| Scenarios.TakeSoda | model/kitchen_test.cc:36-49 | A second cold order finds the cold shelf full and lands on overflow. |
| Scenarios.PickUpTea | model/kitchen_test.cc:51-77 | Picking up the tea empties the cold shelf and leaves the soda on overflow. |
| Scenarios.TakeBurger | model/kitchen_test.cc:51-77 | The burger takes the empty hot shelf. |
| Scenarios.TakePizza | model/kitchen_test.cc:51-77 | Hot shelf and overflow are full, so the soda moves back to the cold shelf and the pizza takes overflow. |
| Scenarios.OverflowRoomMade | model/kitchen_test.cc:51-77 | The whole relocation run ends with the burger on hot, the soda on cold and the pizza on overflow. |
| Scenarios.TakeJuice | model/kitchen_test.cc:79-99 | With the cold shelf and overflow full of cold orders, the soda is dropped from overflow for the juice but stays held. |
| Scenarios.OverflowDiscarded | model/kitchen_test.cc:79-99 | The whole discard run ends with the tea on cold and the juice on overflow. |
| Scenarios.TakeIceCream | model/kitchen_test.cc:113-131 | The ice cream takes the frozen shelf. |
| Scenarios.TakeCannoli | model/kitchen_test.cc:113-131 | The cannoli overflows. |
| Scenarios.OrderValueOverflow | model/kitchen_test.cc:113-131 | After 100 s the frozen-shelf order is worth (300 − 100)/300 and the overflow order (300 − 200)/300. |
| Scenarios.FrozenPairValues | model/kitchen_test.cc:113-131 | The same values hold after the two takes on the test kitchen. |
| Scenarios.TakeIntoDefaultKitchen | model/kitchen_test.cc:25-34 | An order of a known temperature taken into a default kitchen keeps the invariant, is fulfilled at the intake time, and sits on its own temperature's shelf. |
| Scenarios.FulfillmentTimeRecorded | model/kitchen_test.cc:25-34 | The cold ice cream taken into a default kitchen carries the intake time as its fulfillment time and sits on the cold shelf. |
| Scenarios.OrderValueExpired | model/kitchen_test.cc:101-111 | Half a century after the frozen ice cream was taken into a default kitchen, it is worth nothing. |
| Scenarios.DeliveryTimeRecorded | model/courier_test.cc:7-22 | A courier picking the cheese pizza up 60 s after cooking delivers it stamped with that time and is empty again. |
| Scenarios.CourierDeliversPizza | model/courier_test.cc:7-22 | The cheese pizza taken into a default kitchen and collected 60 s later is delivered, stamped with that time. |

## Left out

- Timers, the event loop and threads: the Boost.Asio timers, strand, `io_context` and the worker pool (model/kitchen.cc:58-70, kitchen_sim_lib.cc:28-97). An expiry firing is a later `PickupOrder` at or after the scheduled time. The simulation's tick loop is not modelled.
- Fibers promises and futures: they are always resolved, so they are plain return values.
- Logging: `LogMessage`, `LogShelves`, `LogMessageForShelf`, `PrintTemperatureType`, time formatting.
- JSON and file reading, and the command-line flags (kitchen_sim.cc). `IngestOrders` takes the decoded records and the clock reading for each one.
- Wall clock and randomness: `absl::Now()` and `mt19937` become the parameters `at`, `now`, `clock`, `enum`, `choice` and `draw`. The uniform distribution of the discard and of the courier delay is not modelled, only their ranges.
- IEEE double arithmetic and rounding: values and times are exact reals.
- Orders.Value: requires a positive shelf life once fulfilled, because a zero shelf life divides by zero in the source (model/order.cc:62, 70-71). `TakeOrder` requires a positive shelf life for the same reason.
- Kitchens.TakeOrder: requires an id the kitchen does not hold yet. Re-taking a held id overwrites the index while a shelf still names the old order (model/kitchen.cc:72).
- Kitchens.TakeOrder: requires an overflow capacity of at least 1. With capacity 0 the discard branch draws from an empty shelf. Both presets and the defaults satisfy this.
- Kitchens.TakeOrder: the missing-shelf error message ends with the kitchen's name and omits the temperature suffix of the source's message.
- Kitchens.PickupOrder: requires an index entry naming an existing shelf and a well-formed order. Every id of a kitchen keeping the invariant meets this.
- Shelves.NewShelf: capacities are non-negative. The source takes an `int` capacity and stores it as `size_t` after reserving that many places (model/kitchen.h:36-38, 58), so a negative capacity wraps to a huge bound or makes the reservation throw; neither is modelled.
- Kitchens.NewKitchen: the overflow and per-temperature capacities of the options are non-negative, for the same reason as `Shelves.NewShelf` (model/kitchen.h:22-31).
- Couriers.PickupCurrentOrder: the courier's kitchen pointer is a handle into a map of kitchens passed in.
- Order ownership, `unique_ptr` transfer and pointer identity: shelves hold ids.

=== FILE: common.dfy ===
/** Shared result types of the kitchen simulation model.

    kitchen_sim signals a missing value with a null pointer or an
    empty `std::optional`, and validation failures with a thrown
    `std::invalid_argument`. Here both become ordinary values.
 */
module Common {

  /** An optional value: a null pointer, an empty `std::optional`. */
  datatype Option<+T> = None | Some(value: T)

  /** The one error kind the program throws: `std::invalid_argument`. */
  datatype Error = InvalidArgument(message: string)

  /** Either a value or the exception the call would have thrown. */
  datatype Result<+T> = Ok(value: T) | Err(error: Error)

  /** `s` lists the elements of `xs`, each once: one iteration order of an
      unordered container. */
  ghost predicate IsEnumeration<T(!new)>(s: seq<T>, xs: set<T>)
  {
    && |s| == |xs|
    && (forall x :: x in xs <==> x in s)
  }
}

=== FILE: courier.dfy ===
/** A delivery courier (class `Courier`, model/courier.h and model/courier.cc):
    holds at most one accepted order and picks it up from its kitchen once.
 */
module Couriers {
  import opened Common
  import opened Orders
  import opened Kitchens

  /** Stands for the `Kitchen*` a courier keeps: a handle resolved in the
      map of live kitchens passed to `PickupCurrentOrder`. */
  type KitchenRef = nat

  datatype OrderInfo = OrderInfo(orderId: Id, kitchen: KitchenRef)

  /** Empty when `current` is `None`, holding an order otherwise. */
  datatype Courier = Courier(current: Option<OrderInfo>)

  const NoOrderMessage := "Cannot pickup when no order has been accepted!"

  /** A default-constructed courier holds nothing. */
  const NewCourier := Courier(None)

  datatype Acceptance = Acceptance(courier: Courier, accepted: bool)

  /** Takes on an order, replacing any held one; always succeeds. */
  function AcceptOrder(c: Courier, info: OrderInfo): (r: Acceptance)
    ensures r.accepted
    ensures r.courier.current == Some(info)
  {
    Acceptance(Courier(Some(info)), true)
  }

  datatype Delivery = Delivery(courier: Courier, kitchens: map<KitchenRef, Kitchen>, order: Option<Order>)

  /** Picks the held order up from its kitchen at `t`; the courier is empty
      afterwards whatever the kitchen answered. A delivered order carries
      its delivery time. */
  function PickupCurrentOrder(c: Courier, kitchens: map<KitchenRef, Kitchen>, t: real): (r: Result<Delivery>)
    requires c.current.Some? ==> c.current.value.kitchen in kitchens
    requires c.current.Some? ==> PickupReady(kitchens[c.current.value.kitchen], c.current.value.orderId)
    ensures r.Err? <==> c.current.None?
    ensures r.Err? ==> r.error == InvalidArgument(NoOrderMessage)
    ensures r.Ok? ==> r.value.courier.current.None?
    ensures r.Ok? ==>
              var info := c.current.value;
              var p := PickupOrder(kitchens[info.kitchen], info.orderId, t);
              && r.value.kitchens == kitchens[info.kitchen := p.kitchen]
              && (r.value.order.None? <==> p.order.None?)
              && (r.value.order.Some? ==>
                    r.value.order.value == p.order.value.(deliveryTime := Some(t)))
  {
    match c.current
    case None => Err(InvalidArgument(NoOrderMessage))
    case Some(info) =>
      var p := PickupOrder(kitchens[info.kitchen], info.orderId, t);
      var delivered := match p.order
        case None => None
        case Some(o) => Some(SetDeliveryTime(o, t));
      Ok(Delivery(Courier(None), kitchens[info.kitchen := p.kitchen], delivered))
  }

  /** Exactly one pickup per accepted order: accepting and picking up
      succeeds, and a second pickup without a new acceptance throws. */
  lemma OnePickupPerAcceptance(c: Courier, info: OrderInfo, kitchens: map<KitchenRef, Kitchen>, t1: real, t2: real)
    requires info.kitchen in kitchens && PickupReady(kitchens[info.kitchen], info.orderId)
    ensures var first := PickupCurrentOrder(AcceptOrder(c, info).courier, kitchens, t1);
            && first.Ok?
            && PickupCurrentOrder(first.value.courier, first.value.kitchens, t2)
                 == Err(InvalidArgument(NoOrderMessage))
  {
  }

  /** A courier that has never accepted an order cannot pick one up, and
      the kitchens are left as they were. */
  lemma NewCourierCannotPickUp(kitchens: map<KitchenRef, Kitchen>, t: real)
    ensures PickupCurrentOrder(NewCourier, kitchens, t) == Err(InvalidArgument(NoOrderMessage))
  {
  }
}

=== FILE: kitchen.dfy ===
/** The kitchen: shelves, order bookkeeping, placement, eviction and pickup
    (class `Kitchen`, model/kitchen.h and model/kitchen.cc).

    Shelves hold order ids. `orders` owns the orders; `orderToShelf` says
    which shelf an id was last placed on. The iteration order of the overflow
    shelf's unordered set, the random draw of the discard and the wall clock
    read during a relocation are explicit parameters.
 */
module Kitchens {
  import opened Common
  import opened Orders
  import opened Shelves

  /** Which shelf: one per temperature group, plus the overflow shelf. */
  datatype ShelfRef = TemperatureShelf(temp: Temperature) | OverflowShelf

  datatype Options = Options(
    name: string,
    overflowCapacity: nat,
    tempToCapacity: map<Temperature, nat>)

  /** The defaults of `Kitchen::Options`. */
  function DefaultOptions(name: string): (opts: Options)
    ensures opts.name == name && opts.overflowCapacity == 15
    ensures opts.tempToCapacity.Keys == {Frozen, Cold, Hot}
    ensures forall t :: t in opts.tempToCapacity ==> opts.tempToCapacity[t] == 10
  {
    Options(name, 15, map[Hot := 10, Cold := 10, Frozen := 10])
  }

  /** The decay modifiers the constructor stores in the shelves themselves.
      Valuation does not read them: see `ValueModifier`. */
  const OverflowShelfModifier := 1
  const TemperatureShelfModifier := 2

  /** The decay modifier `OrderValue` applies, hard-coded per kind of shelf. */
  function ValueModifier(ref: ShelfRef): int
  {
    if ref == OverflowShelf then 2 else 1
  }

  /** The modifier the expiry deadline is computed with at intake. */
  const ExpiryModifier := 1

  const MissingShelfMessage := "Could not find shelf for kitchen: "

  datatype Kitchen = Kitchen(
    name: string,
    shelves: map<Temperature, Shelf>,
    overflow: Shelf,
    orders: map<Id, Order>,
    orderToShelf: map<Id, ShelfRef>)

  // ---------------------------------------------------------------------------
  // Shelf access
  // ---------------------------------------------------------------------------

  ghost predicate RefValid(k: Kitchen, ref: ShelfRef)
  {
    ref.TemperatureShelf? ==> ref.temp in k.shelves
  }

  function ShelfAt(k: Kitchen, ref: ShelfRef): Shelf
    requires RefValid(k, ref)
  {
    match ref
    case TemperatureShelf(t) => k.shelves[t]
    case OverflowShelf => k.overflow
  }

  function WithShelf(k: Kitchen, ref: ShelfRef, s: Shelf): (r: Kitchen)
    requires RefValid(k, ref)
    ensures RefValid(r, ref) && ShelfAt(r, ref) == s
  {
    match ref
    case TemperatureShelf(t) => k.(shelves := k.shelves[t := s])
    case OverflowShelf => k.(overflow := s)
  }

  /** The set of shelves on which `id` physically sits. */
  function ShelvesHolding(k: Kitchen, id: Id): set<ShelfRef>
  {
    (set t | t in k.shelves && id in k.shelves[t].orders :: TemperatureShelf(t))
      + (if id in k.overflow.orders then {OverflowShelf} else {})
  }

  /** Same shelves with the same capacities and decay modifiers, same name. */
  ghost predicate SameLayout(a: Kitchen, b: Kitchen)
  {
    && a.name == b.name
    && a.shelves.Keys == b.shelves.Keys
    && (forall t :: t in a.shelves ==> SameConfig(a.shelves[t], b.shelves[t]))
    && SameConfig(a.overflow, b.overflow)
  }

  /** Every shelf except `ref` is the same in `a` and `b`. */
  ghost predicate OtherShelvesUnchanged(a: Kitchen, b: Kitchen, ref: ShelfRef)
  {
    && a.shelves.Keys == b.shelves.Keys
    && (forall t :: t in a.shelves && ref != TemperatureShelf(t) ==> a.shelves[t] == b.shelves[t])
    && (ref != OverflowShelf ==> a.overflow == b.overflow)
  }

  /** The modifiers as the constructor stores them in the shelves. */
  ghost predicate BuiltModifiers(k: Kitchen)
  {
    && k.overflow.decayModifier == OverflowShelfModifier
    && forall t :: t in k.shelves ==> k.shelves[t].decayModifier == TemperatureShelfModifier
  }

  // ---------------------------------------------------------------------------
  // The kitchen invariant
  // ---------------------------------------------------------------------------

  /** Every order on a shelf is indexed, and its index entry names that shelf. */
  ghost predicate ShelvedAreIndexed(k: Kitchen)
  {
    && (forall t, id :: t in k.shelves && id in k.shelves[t].orders ==>
          id in k.orderToShelf && k.orderToShelf[id] == TemperatureShelf(t))
    && (forall id :: id in k.overflow.orders ==>
          id in k.orderToShelf && k.orderToShelf[id] == OverflowShelf)
  }

  /** The two indexes have the same ids and name existing shelves. */
  ghost predicate IndexesAgree(k: Kitchen)
  {
    && k.orders.Keys == k.orderToShelf.Keys
    && forall id :: id in k.orderToShelf ==> RefValid(k, k.orderToShelf[id])
  }

  ghost predicate ShelvesWithinCapacity(k: Kitchen)
  {
    && WithinCapacity(k.overflow)
    && forall t :: t in k.shelves ==> WithinCapacity(k.shelves[t])
  }

  /** An order the kitchen holds: cooked, valuable, keyed by its own id,
      with its baseline in [0, 1]; if indexed to a temperature shelf then to
      its own temperature's, and if indexed to overflow then never moved
      since it was cooked (only overflow orders are ever moved, once). */
  ghost predicate HeldOrder(k: Kitchen, id: Id)
    requires id in k.orders
  {
    var o := k.orders[id];
    && o.id == id && o.fulfillmentTime.Some? && Valuable(o) && ValueBounded(o)
    && (id in k.orderToShelf && k.orderToShelf[id].TemperatureShelf? ==>
          k.orderToShelf[id].temp == o.temp)
    && (id in k.orderToShelf && k.orderToShelf[id] == OverflowShelf ==>
          o.lastMoveTime == o.fulfillmentTime)
  }

  ghost predicate OrdersWellFormed(k: Kitchen)
  {
    forall id :: id in k.orders ==> HeldOrder(k, id)
  }

  ghost predicate Inv(k: Kitchen)
  {
    && ShelvedAreIndexed(k)
    && IndexesAgree(k)
    && ShelvesWithinCapacity(k)
    && BuiltModifiers(k)
    && OrdersWellFormed(k)
  }

  // ---------------------------------------------------------------------------
  // Construction
  // ---------------------------------------------------------------------------

  /** Empty shelves, one per configured temperature, plus the overflow shelf. */
  function NewKitchen(opts: Options): (k: Kitchen)
    ensures Inv(k) && BuiltModifiers(k)
    ensures forall t :: t in k.shelves ==> k.shelves[t].decayModifier == ValueModifier(OverflowShelf)
    ensures forall t :: t in k.shelves ==> k.overflow.decayModifier == ValueModifier(TemperatureShelf(t))
    ensures k.name == opts.name && k.orders == map[] && k.orderToShelf == map[]
    ensures k.shelves.Keys == opts.tempToCapacity.Keys
    ensures forall t :: t in k.shelves ==>
              k.shelves[t].orders == {} && k.shelves[t].maxCapacity == opts.tempToCapacity[t]
    ensures k.overflow.orders == {} && k.overflow.maxCapacity == opts.overflowCapacity
  {
    Kitchen(
      opts.name,
      map t | t in opts.tempToCapacity :: NewShelf(opts.tempToCapacity[t], TemperatureShelfModifier),
      NewShelf(opts.overflowCapacity, OverflowShelfModifier),
      map[], map[])
  }

  // ---------------------------------------------------------------------------
  // Valuation and pickup
  // ---------------------------------------------------------------------------

  /** Value of a held order at `t`, with the modifier of the kind of shelf
      it is indexed on; nothing for an unknown id. */
  function OrderValue(k: Kitchen, id: Id, t: real): (v: real)
    requires id in k.orders ==> Valuable(k.orders[id])
    ensures v >= 0.0
    ensures id !in k.orders ==> v == 0.0
    ensures v > 0.0 ==> id in k.orders && id in k.orderToShelf
  {
    if id !in k.orders then 0.0
    else if id !in k.orderToShelf then 0.0
    else Value(k.orders[id], ValueModifier(k.orderToShelf[id]), t)
  }

  datatype Pickup = Pickup(kitchen: Kitchen, order: Option<Order>)

  /** What `PickupOrder` needs of the kitchen for `id`: a valuable order and
      an index entry naming an existing shelf. Every id of a kitchen that
      keeps `Inv` has both. */
  ghost predicate PickupReady(k: Kitchen, id: Id)
  {
    && (id in k.orders ==> Valuable(k.orders[id]))
    && (id in k.orderToShelf ==> RefValid(k, k.orderToShelf[id]))
  }

  /** Hands a held order over, unless it is unknown or no longer worth
      anything; a refused order stays where it is. */
  function PickupOrder(k: Kitchen, id: Id, t: real): (r: Pickup)
    requires PickupReady(k, id)
    ensures r.order.None? <==> (id !in k.orders || OrderValue(k, id, t) <= 0.0)
    ensures r.order.None? ==> r.kitchen == k
    ensures r.order.Some? ==>
              && id in k.orders && id in k.orderToShelf
              && r.order.value == k.orders[id]
              && r.kitchen.orders == k.orders - {id}
              && r.kitchen.orderToShelf == k.orderToShelf - {id}
              && RefValid(k, k.orderToShelf[id]) && RefValid(r.kitchen, k.orderToShelf[id])
              && ShelfAt(r.kitchen, k.orderToShelf[id]).orders
                   == ShelfAt(k, k.orderToShelf[id]).orders - {id}
              && OtherShelvesUnchanged(k, r.kitchen, k.orderToShelf[id])
    ensures SameLayout(k, r.kitchen)
  {
    if id !in k.orders then Pickup(k, None)
    else if OrderValue(k, id, t) <= 0.0 then Pickup(k, None)
    else
      var ref := k.orderToShelf[id];
      var emptied := WithShelf(k, ref, RemoveOrder(ShelfAt(k, ref), id));
      Pickup(emptied.(orders := k.orders - {id}, orderToShelf := k.orderToShelf - {id}),
             Some(k.orders[id]))
  }

  // ---------------------------------------------------------------------------
  // Placement and eviction
  // ---------------------------------------------------------------------------

  datatype Placement = Placement(kitchen: Kitchen, placed: bool)

  /** Puts `id` on shelf `ref` if it has room, and records that shelf. */
  function PlaceOrder(k: Kitchen, id: Id, ref: ShelfRef): (r: Placement)
    requires RefValid(k, ref)
    ensures r.placed <==> !AtCapacity(ShelfAt(k, ref))
    ensures !r.placed ==> r.kitchen == k
    ensures r.placed ==>
              && RefValid(r.kitchen, ref)
              && ShelfAt(r.kitchen, ref).orders == ShelfAt(k, ref).orders + {id}
              && OtherShelvesUnchanged(k, r.kitchen, ref)
              && r.kitchen.orderToShelf == k.orderToShelf[id := ref]
              && r.kitchen.orders == k.orders
    ensures SameLayout(k, r.kitchen)
  {
    var added := AddOrder(ShelfAt(k, ref), id);
    if added.added then
      Placement(WithShelf(k, ref, added.shelf).(orderToShelf := k.orderToShelf[id := ref]), true)
    else Placement(k, false)
  }

  /** Temperature groups whose shelf has room. */
  function OpenShelves(k: Kitchen): (open: set<Temperature>)
    ensures forall t :: t in open <==> t in k.shelves && !AtCapacity(k.shelves[t])
  {
    set t | t in k.shelves && !AtCapacity(k.shelves[t])
  }

  /** A temperature group is open exactly when placing an order on its
      shelf would succeed. */
  lemma OpenShelfAcceptsOrder(k: Kitchen, t: Temperature, id: Id)
    requires t in k.shelves
    ensures t in OpenShelves(k) <==> PlaceOrder(k, id, TemperatureShelf(t)).placed
  {
  }

  /** A held order whose own temperature shelf has room. */
  predicate Movable(k: Kitchen, id: Id)
  {
    id in k.orders && k.orders[id].temp in OpenShelves(k)
  }

  /** Position of the first movable order in the enumeration, if any. */
  function FirstMovable(k: Kitchen, enum: seq<Id>): (r: Option<nat>)
    ensures r.Some? ==> r.value < |enum| && Movable(k, enum[r.value])
    ensures r.Some? ==> forall j :: 0 <= j < r.value ==> !Movable(k, enum[j])
    ensures r.None? <==> forall j :: 0 <= j < |enum| ==> !Movable(k, enum[j])
    decreases |enum|
  {
    if enum == [] then None
    else if Movable(k, enum[0]) then Some(0)
    else match FirstMovable(k, enum[1..])
      case None => None
      case Some(i) => Some(i + 1)
  }

  /** Some order on the overflow shelf could move to its own shelf. */
  ghost predicate AnyMovable(k: Kitchen)
  {
    exists id :: id in k.overflow.orders && Movable(k, id)
  }

  /** `r` is `k` with overflow order `id` moved to its temperature shelf,
      re-baselined at `now` with the overflow shelf's stored modifier. */
  ghost predicate Relocated(k: Kitchen, r: Kitchen, id: Id, now: real)
  {
    && id in k.orders && id in k.overflow.orders
    && Valuable(k.orders[id])
    && var temp := k.orders[id].temp;
       && temp in k.shelves
       && r.name == k.name
       && r.overflow == RemoveOrder(k.overflow, id)
       && r.shelves == k.shelves[temp := k.shelves[temp].(orders := k.shelves[temp].orders + {id})]
       && r.orders == k.orders[id := MoveFrom(k.orders[id], k.overflow.decayModifier, now)]
       && r.orderToShelf == k.orderToShelf[id := TemperatureShelf(temp)]
  }

  /** `r` is `k` with overflow order `id` dropped from the overflow shelf
      only: both indexes still hold it. */
  ghost predicate Discarded(k: Kitchen, r: Kitchen, id: Id)
  {
    && id in k.overflow.orders
    && r == k.(overflow := RemoveOrder(k.overflow, id))
  }

  /** Frees one overflow place: moves the first overflow order (in
      enumeration order) whose temperature shelf has room, or else discards
      the overflow order at position `choice`. */
  function MakeOverflowRoom(k: Kitchen, enum: seq<Id>, choice: nat, now: real): (r: Kitchen)
    requires Inv(k)
    requires IsEnumeration(enum, k.overflow.orders)
    requires choice < |enum|
    ensures |r.overflow.orders| == |k.overflow.orders| - 1
    ensures AnyMovable(k) ==>
              exists i :: && 0 <= i < |enum| && Movable(k, enum[i])
                          && (forall j :: 0 <= j < i ==> !Movable(k, enum[j]))
                          && Relocated(k, r, enum[i], now)
    ensures !AnyMovable(k) ==> Discarded(k, r, enum[choice])
    ensures SameLayout(k, r)
  {
    match FirstMovable(k, enum)
    case Some(i) =>
      var id := enum[i];
      assert id in k.overflow.orders;
      var order := k.orders[id];
      var moved := MoveFrom(order, k.overflow.decayModifier, now);
      var k1 := k.(overflow := RemoveOrder(k.overflow, id), orders := k.orders[id := moved]);
      PlaceOrder(k1, id, TemperatureShelf(order.temp)).kitchen
    case None =>
      assert enum[choice] in k.overflow.orders;
      k.(overflow := RemoveOrder(k.overflow, enum[choice]))
  }

  /** An order taken in: the kitchen after placement, the fulfilled order,
      and the absolute time its expiry check is scheduled for. */
  datatype Taken = Taken(kitchen: Kitchen, order: Order, expiry: real)

  /** The kitchen after `PlaceOrder`s (and `MakeOverflowRoom`) for `id`,
      before the order enters the index. */
  function Placed(k: Kitchen, id: Id, temp: Temperature, enum: seq<Id>, choice: nat, now: real): (p: Kitchen)
    requires Inv(k) && temp in k.shelves
    requires IsEnumeration(enum, k.overflow.orders)
    requires choice < |enum| || enum == []
    requires k.overflow.maxCapacity >= 1
    ensures p.orders.Keys == k.orders.Keys
  {
    var onShelf := PlaceOrder(k, id, TemperatureShelf(temp));
    if onShelf.placed then onShelf.kitchen
    else
      var onOverflow := PlaceOrder(k, id, OverflowShelf);
      if onOverflow.placed then onOverflow.kitchen
      else
        assert |enum| >= 1;
        PlaceOrder(MakeOverflowRoom(k, enum, choice, now), id, OverflowShelf).kitchen
  }

  /** Cooks (instantly, at `at`) and shelves a new order: its own
      temperature shelf first, then overflow, and when both are full the
      overflow shelf after making room. */
  function TakeOrder(k: Kitchen, o: Order, at: real, enum: seq<Id>, choice: nat, now: real): (r: Result<Taken>)
    requires Inv(k)
    requires o.id !in k.orders && o.shelfLife > 0
    requires IsEnumeration(enum, k.overflow.orders)
    requires choice < |enum| || enum == []
    requires k.overflow.maxCapacity >= 1
    ensures r.Err? <==> o.temp !in k.shelves
    ensures r.Err? ==> r.error == InvalidArgument(MissingShelfMessage + k.name)
    ensures r.Ok? ==>
              && r.value.order.fulfillmentTime == Some(at)
              && r.value.order.lastMoveTime == Some(at)
              && SameIdentity(o, r.value.order)
              && r.value.order.lastValueAtMove == o.lastValueAtMove
              && r.value.kitchen.orders.Keys == k.orders.Keys + {o.id}
              && r.value.kitchen.orders[o.id] == r.value.order
              && r.value.expiry <= at + o.shelfLife as real
              && r.value.expiry == Expiry(r.value.order, ExpiryModifier)
  {
    if o.temp !in k.shelves then Err(InvalidArgument(MissingShelfMessage + k.name))
    else
      var fulfilled := SetFulfillmentTime(o, at);
      var placed := Placed(k, o.id, o.temp, enum, choice, now);
      Ok(Taken(placed.(orders := placed.orders[o.id := fulfilled]), fulfilled,
               Expiry(fulfilled, ExpiryModifier)))
  }
}

=== FILE: kitchen_invariant.dfy ===
/** The kitchen invariant: it holds of a new kitchen and every operation
    keeps it; placement puts a new order on exactly one shelf.
 */
module KitchenInvariant {
  import opened Common
  import opened Orders
  import opened Shelves
  import opened Kitchens

  /** Under the invariant an order sits on at most one shelf: the one its
      index entry names. */
  lemma OnlyIndexedShelf(k: Kitchen, id: Id, ref: ShelfRef)
    requires Inv(k) && RefValid(k, ref) && id in ShelfAt(k, ref).orders
    ensures id in k.orders && k.orderToShelf[id] == ref
    ensures ShelvesHolding(k, id) == {ref}
  {
    var holding := ShelvesHolding(k, id);
    forall s | s in holding
      ensures s == ref
    {
      if s.TemperatureShelf? {
        assert id in k.shelves[s.temp].orders;
      }
    }
    assert ref in holding by {
      if ref.TemperatureShelf? {
        assert TemperatureShelf(ref.temp) in holding;
      }
    }
  }

  /** No order sits on two shelves. */
  lemma ShelvesDisjoint(k: Kitchen)
    requires Inv(k)
    ensures forall t1, t2 :: t1 in k.shelves && t2 in k.shelves && t1 != t2 ==>
              k.shelves[t1].orders !! k.shelves[t2].orders
    ensures forall t :: t in k.shelves ==> k.shelves[t].orders !! k.overflow.orders
  {
    forall t1, t2 | t1 in k.shelves && t2 in k.shelves && t1 != t2
      ensures k.shelves[t1].orders !! k.shelves[t2].orders
    {
      forall id | id in k.shelves[t1].orders
        ensures id !in k.shelves[t2].orders
      {
        OnlyIndexedShelf(k, id, TemperatureShelf(t1));
      }
    }
    forall t | t in k.shelves
      ensures k.shelves[t].orders !! k.overflow.orders
    {
      forall id | id in k.overflow.orders
        ensures id !in k.shelves[t].orders
      {
        OnlyIndexedShelf(k, id, OverflowShelf);
      }
    }
  }

  /** The kitchen after the new order's placement on `ref` and its entry
      into the order index. */
  function Admit(k: Kitchen, o: Order, ref: ShelfRef): Kitchen
    requires RefValid(k, ref)
  {
    var placed := PlaceOrder(k, o.id, ref).kitchen;
    placed.(orders := placed.orders[o.id := o])
  }

  /** Admitting a fresh, cooked order on a shelf with room keeps the
      invariant, and the order then sits on that shelf alone. */
  lemma AdmitKeepsInv(k: Kitchen, o: Order, ref: ShelfRef)
    requires Inv(k) && o.id !in k.orders
    requires RefValid(k, ref) && !AtCapacity(ShelfAt(k, ref))
    requires o.fulfillmentTime.Some? && Valuable(o) && ValueBounded(o)
    requires o.lastMoveTime == o.fulfillmentTime
    requires ref.TemperatureShelf? ==> ref.temp == o.temp
    ensures Inv(Admit(k, o, ref))
    ensures Admit(k, o, ref).orderToShelf[o.id] == ref
    ensures ShelvesHolding(Admit(k, o, ref), o.id) == {ref}
  {
    var r := Admit(k, o, ref);
    assert o.id !in k.orderToShelf;
    assert ShelvedAreIndexed(r) by {
      forall t, id | t in r.shelves && id in r.shelves[t].orders
        ensures id in r.orderToShelf && r.orderToShelf[id] == TemperatureShelf(t)
      {
        if id != o.id {
          if ref == TemperatureShelf(t) {
            assert id in k.shelves[t].orders;
          } else {
            assert k.shelves[t] == r.shelves[t];
          }
        }
      }
      forall id | id in r.overflow.orders
        ensures id in r.orderToShelf && r.orderToShelf[id] == OverflowShelf
      {
        if id != o.id {
          assert id in k.overflow.orders;
        }
      }
    }
    assert ShelvesWithinCapacity(r) by {
      forall t | t in r.shelves
        ensures WithinCapacity(r.shelves[t])
      {
        if ref != TemperatureShelf(t) {
          assert r.shelves[t] == k.shelves[t];
        }
      }
    }
    assert OrdersWellFormed(r) by {
      forall id | id in r.orders
        ensures HeldOrder(r, id)
      {
        if id != o.id {
          assert HeldOrder(k, id);
        }
      }
    }
    assert RefValid(r, ref);
    OnlyIndexedShelf(r, o.id, ref);
  }

  /** Relocating an overflow order to its open temperature shelf keeps the
      invariant. */
  lemma RelocationKeepsInv(k: Kitchen, r: Kitchen, id: Id, now: real)
    requires Inv(k) && Movable(k, id) && Relocated(k, r, id, now)
    ensures Inv(r)
  {
    var temp := k.orders[id].temp;
    assert ShelvedAreIndexed(r) by {
      forall t, x | t in r.shelves && x in r.shelves[t].orders
        ensures x in r.orderToShelf && r.orderToShelf[x] == TemperatureShelf(t)
      {
        if x != id {
          assert x in k.shelves[t].orders;
        }
      }
      forall x | x in r.overflow.orders
        ensures x in r.orderToShelf && r.orderToShelf[x] == OverflowShelf
      {
        assert x in k.overflow.orders;
      }
    }
    assert ShelvesWithinCapacity(r) by {
      forall t | t in r.shelves
        ensures WithinCapacity(r.shelves[t])
      {
        if t == temp {
          assert !AtCapacity(k.shelves[temp]);
        } else {
          assert r.shelves[t] == k.shelves[t];
        }
      }
    }
    assert OrdersWellFormed(r) by {
      forall x | x in r.orders
        ensures HeldOrder(r, x)
      {
        assert HeldOrder(k, x);
        if x == id {
          MoveFromKeepsBound(k.orders[id], k.overflow.decayModifier, now);
        }
      }
    }
  }

  /** Discarding an overflow order keeps the invariant: the order leaves
      the shelf but keeps its index entries. */
  lemma DiscardKeepsInv(k: Kitchen, r: Kitchen, id: Id)
    requires Inv(k) && Discarded(k, r, id)
    ensures Inv(r)
  {
    assert OrdersWellFormed(r) by {
      forall x | x in r.orders
        ensures HeldOrder(r, x)
      {
        assert HeldOrder(k, x);
      }
    }
  }

  lemma MakeOverflowRoomKeepsInv(k: Kitchen, enum: seq<Id>, choice: nat, now: real)
    requires Inv(k) && IsEnumeration(enum, k.overflow.orders) && choice < |enum|
    ensures Inv(MakeOverflowRoom(k, enum, choice, now))
  {
    var r := MakeOverflowRoom(k, enum, choice, now);
    if AnyMovable(k) {
      var i :| && 0 <= i < |enum| && Movable(k, enum[i])
               && (forall j :: 0 <= j < i ==> !Movable(k, enum[j]))
               && Relocated(k, r, enum[i], now);
      RelocationKeepsInv(k, r, enum[i], now);
    } else {
      DiscardKeepsInv(k, r, enum[choice]);
    }
  }

  /** Where `TakeOrder` puts the new order, by which shelves have room:
      its own temperature shelf, else overflow, else overflow after
      `MakeOverflowRoom`. */
  lemma {:induction false} TakeOrderPlacement(k: Kitchen, o: Order, at: real, enum: seq<Id>, choice: nat, now: real)
    requires Inv(k) && o.id !in k.orders && o.shelfLife > 0
    requires IsEnumeration(enum, k.overflow.orders)
    requires choice < |enum| || enum == []
    requires k.overflow.maxCapacity >= 1
    requires o.temp in k.shelves
    ensures var fulfilled := SetFulfillmentTime(o, at);
            var r := TakeOrder(k, o, at, enum, choice, now);
            && r.Ok?
            && (!AtCapacity(k.shelves[o.temp]) ==>
                  r.value.kitchen == Admit(k, fulfilled, TemperatureShelf(o.temp)))
            && (AtCapacity(k.shelves[o.temp]) && !AtCapacity(k.overflow) ==>
                  r.value.kitchen == Admit(k, fulfilled, OverflowShelf))
            && (AtCapacity(k.shelves[o.temp]) && AtCapacity(k.overflow) ==>
                  && |enum| >= 1
                  && r.value.kitchen == Admit(MakeOverflowRoom(k, enum, choice, now), fulfilled, OverflowShelf))
  {
    if AtCapacity(k.shelves[o.temp]) && AtCapacity(k.overflow) {
      assert |enum| >= 1;
    }
  }

  /** `TakeOrder` keeps the invariant and the layout, and the new order
      ends up indexed and on exactly one shelf: the one its index names,
      its own temperature shelf or overflow. */
  lemma TakeOrderKeepsInv(k: Kitchen, o: Order, at: real, enum: seq<Id>, choice: nat, now: real)
    requires Inv(k) && o.id !in k.orders && o.shelfLife > 0 && ValueBounded(o)
    requires IsEnumeration(enum, k.overflow.orders)
    requires choice < |enum| || enum == []
    requires k.overflow.maxCapacity >= 1
    ensures var r := TakeOrder(k, o, at, enum, choice, now);
            r.Ok? ==>
              && Inv(r.value.kitchen)
              && SameLayout(k, r.value.kitchen)
              && o.id in r.value.kitchen.orderToShelf
              && ShelvesHolding(r.value.kitchen, o.id) == {r.value.kitchen.orderToShelf[o.id]}
              && r.value.kitchen.orderToShelf[o.id] in {TemperatureShelf(o.temp), OverflowShelf}
  {
    if o.temp in k.shelves {
      var fulfilled := SetFulfillmentTime(o, at);
      TakeOrderPlacement(k, o, at, enum, choice, now);
      if !AtCapacity(k.shelves[o.temp]) {
        AdmitKeepsInv(k, fulfilled, TemperatureShelf(o.temp));
      } else if !AtCapacity(k.overflow) {
        AdmitKeepsInv(k, fulfilled, OverflowShelf);
      } else {
        var room := MakeOverflowRoom(k, enum, choice, now);
        MakeOverflowRoomKeepsInv(k, enum, choice, now);
        assert !AtCapacity(room.overflow);
        AdmitKeepsInv(room, fulfilled, OverflowShelf);
      }
    }
  }

  /** When its temperature shelf has room, `TakeOrder` adds the cooked
      order to that shelf and to both indexes and touches nothing else. */
  lemma TakeOrderOnOwnShelf(k: Kitchen, o: Order, at: real, enum: seq<Id>, choice: nat, now: real)
    requires Inv(k) && o.id !in k.orders && o.shelfLife > 0 && ValueBounded(o)
    requires IsEnumeration(enum, k.overflow.orders)
    requires choice < |enum| || enum == []
    requires k.overflow.maxCapacity >= 1
    requires o.temp in k.shelves && !AtCapacity(k.shelves[o.temp])
    ensures var r := TakeOrder(k, o, at, enum, choice, now);
            && r.Ok?
            && Inv(r.value.kitchen)
            && r.value.kitchen.shelves
                 == k.shelves[o.temp := k.shelves[o.temp].(orders := k.shelves[o.temp].orders + {o.id})]
            && r.value.kitchen.overflow == k.overflow
            && r.value.kitchen.orderToShelf == k.orderToShelf[o.id := TemperatureShelf(o.temp)]
            && r.value.kitchen.orders == k.orders[o.id := SetFulfillmentTime(o, at)]
  {
    TakeOrderPlacement(k, o, at, enum, choice, now);
    TakeOrderKeepsInv(k, o, at, enum, choice, now);
  }

  /** When its temperature shelf is full and overflow has room, `TakeOrder`
      adds the cooked order to overflow and to both indexes and touches
      nothing else. */
  lemma TakeOrderOnOverflow(k: Kitchen, o: Order, at: real, enum: seq<Id>, choice: nat, now: real)
    requires Inv(k) && o.id !in k.orders && o.shelfLife > 0 && ValueBounded(o)
    requires IsEnumeration(enum, k.overflow.orders)
    requires choice < |enum| || enum == []
    requires k.overflow.maxCapacity >= 1
    requires o.temp in k.shelves && AtCapacity(k.shelves[o.temp]) && !AtCapacity(k.overflow)
    ensures var r := TakeOrder(k, o, at, enum, choice, now);
            && r.Ok?
            && Inv(r.value.kitchen)
            && r.value.kitchen.shelves == k.shelves
            && r.value.kitchen.overflow == k.overflow.(orders := k.overflow.orders + {o.id})
            && r.value.kitchen.orderToShelf == k.orderToShelf[o.id := OverflowShelf]
            && r.value.kitchen.orders == k.orders[o.id := SetFulfillmentTime(o, at)]
  {
    TakeOrderPlacement(k, o, at, enum, choice, now);
    TakeOrderKeepsInv(k, o, at, enum, choice, now);
  }

  /** When its temperature shelf and overflow are both full, `TakeOrder`
      first makes overflow room and then adds the cooked order to
      overflow and to both indexes. */
  lemma TakeOrderAfterRoom(k: Kitchen, o: Order, at: real, enum: seq<Id>, choice: nat, now: real)
    requires Inv(k) && o.id !in k.orders && o.shelfLife > 0 && ValueBounded(o)
    requires IsEnumeration(enum, k.overflow.orders)
    requires choice < |enum| || enum == []
    requires k.overflow.maxCapacity >= 1
    requires o.temp in k.shelves && AtCapacity(k.shelves[o.temp]) && AtCapacity(k.overflow)
    ensures |enum| >= 1
    ensures var r := TakeOrder(k, o, at, enum, choice, now);
            var room := MakeOverflowRoom(k, enum, choice, now);
            && r.Ok?
            && Inv(r.value.kitchen)
            && r.value.kitchen.shelves == room.shelves
            && r.value.kitchen.overflow == room.overflow.(orders := room.overflow.orders + {o.id})
            && r.value.kitchen.orderToShelf == room.orderToShelf[o.id := OverflowShelf]
            && r.value.kitchen.orders == room.orders[o.id := SetFulfillmentTime(o, at)]
  {
    TakeOrderPlacement(k, o, at, enum, choice, now);
    TakeOrderKeepsInv(k, o, at, enum, choice, now);
  }

  /** `PickupOrder` keeps the invariant. */
  lemma PickupOrderKeepsInv(k: Kitchen, id: Id, t: real)
    requires Inv(k)
    ensures Inv(PickupOrder(k, id, t).kitchen)
  {
    var p := PickupOrder(k, id, t);
    if p.order.Some? {
      var r := p.kitchen;
      var ref := k.orderToShelf[id];
      assert ShelvedAreIndexed(r) by {
        forall u, x | u in r.shelves && x in r.shelves[u].orders
          ensures x in r.orderToShelf && r.orderToShelf[x] == TemperatureShelf(u)
        {
          if ref == TemperatureShelf(u) {
            assert x in k.shelves[u].orders;
          } else {
            assert r.shelves[u] == k.shelves[u];
          }
        }
        forall x | x in r.overflow.orders
          ensures x in r.orderToShelf && r.orderToShelf[x] == OverflowShelf
        {
          assert x in k.overflow.orders;
        }
      }
      assert ShelvesWithinCapacity(r) by {
        forall u | u in r.shelves
          ensures WithinCapacity(r.shelves[u])
        {
          if ref != TemperatureShelf(u) {
            assert r.shelves[u] == k.shelves[u];
          }
        }
      }
      assert OrdersWellFormed(r) by {
        forall x | x in r.orders
          ensures HeldOrder(r, x)
        {
          assert HeldOrder(k, x);
        }
      }
    }
  }

  /** Once an order has been handed over, picking up its id again finds
      nothing and changes nothing. */
  lemma PickupIdempotent(k: Kitchen, id: Id, t1: real, t2: real)
    requires Inv(k)
    requires PickupOrder(k, id, t1).order.Some?
    ensures var first := PickupOrder(k, id, t1).kitchen;
            PickupOrder(first, id, t2) == Pickup(first, None)
  {
  }
}

=== FILE: kitchen_properties.dfy ===
/** Consequences of the kitchen's code as written: the expiry check that
    cannot clean up, the decay modifiers the shelves store but valuation
    ignores, and discards that stay in the order index.
 */
module KitchenProperties {
  import opened Common
  import opened Orders
  import opened Kitchens
  import opened KitchenInvariant

  /** A held order whose decay deadline (from its current baseline, at the
      expiry modifier) comes before its shelf-life cap is refused by every
      pickup from that deadline on: the pickup changes nothing, so the
      order keeps its index entries and its shelf place. */
  lemma DecayedOrderIsRefused(k: Kitchen, id: Id, t: real)
    requires Inv(k) && id in k.orders
    requires var o := k.orders[id];
             && o.decayRate > 0.0 && o.lastValueAtMove >= 0.0
             && o.fulfillmentTime.value <= o.lastMoveTime.value
             && DecayDeadline(o, ExpiryModifier) <= o.fulfillmentTime.value + o.shelfLife as real
             && Expiry(o, ExpiryModifier) <= t
    ensures PickupOrder(k, id, t) == Pickup(k, None)
  {
    var o := k.orders[id];
    assert HeldOrder(k, id);
    var e := Expiry(o, ExpiryModifier);
    ValueZeroAtDecayDeadline(o, ExpiryModifier);
    var sl := o.shelfLife as real;
    assert o.lastValueAtMove * sl >= 0.0;
    assert e >= o.lastMoveTime.value;
    ValueNonIncreasing(o, ExpiryModifier, e, t);
    HigherModifierDecaysFaster(o, ExpiryModifier, ValueModifier(k.orderToShelf[id]), t);
    assert OrderValue(k, id, t) == 0.0;
  }

  /** An order cooked at `at` from full value, decaying at rate 1 or more
      and not moved since, is refused by a pickup at or after its expiry
      (at the expiry modifier): it reaches zero there, before its
      shelf-life cap. */
  lemma FreshOrderExpiryIsRefused(k: Kitchen, o: Order, at: real, t: real)
    requires Unprocessed(o) && o.decayRate >= 1.0 && o.shelfLife > 0
    requires Inv(k) && o.id in k.orders && k.orders[o.id] == SetFulfillmentTime(o, at)
    requires Expiry(SetFulfillmentTime(o, at), ExpiryModifier) <= t
    ensures PickupOrder(k, o.id, t) == Pickup(k, None)
  {
    FreshDecayDeadlineBinds(SetFulfillmentTime(o, at));
    DecayedOrderIsRefused(k, o.id, t);
  }

  /** The expiry check `TakeOrder` schedules is a pickup at the computed
      deadline. For a new order decaying at rate 1 or more the deadline is
      where its value reaches zero, so as long as the order is not moved
      the check, and any later one, is refused and the order is never
      cleaned up. */
  lemma ScheduledExpiryCanBeRefused(k: Kitchen, o: Order, at: real, enum: seq<Id>, choice: nat, now: real,
                                    later: Kitchen, t: real)
    requires Inv(k) && o.id !in k.orders && o.shelfLife > 0
    requires IsEnumeration(enum, k.overflow.orders)
    requires choice < |enum| || enum == []
    requires k.overflow.maxCapacity >= 1
    requires o.temp in k.shelves && Unprocessed(o) && o.decayRate >= 1.0
    requires var taken := TakeOrder(k, o, at, enum, choice, now);
             && Inv(later) && o.id in later.orders
             && later.orders[o.id] == taken.value.order
             && taken.value.expiry <= t
    ensures PickupOrder(later, o.id, t) == Pickup(later, None)
  {
    var taken := TakeOrder(k, o, at, enum, choice, now).value;
    assert taken.order == SetFulfillmentTime(o, at);
    FreshOrderExpiryIsRefused(later, o, at, t);
  }

  /** An order starting from full value at fulfillment, decaying at rate 1
      or more, reaches zero by its shelf-life cap. */
  lemma FreshDecayDeadlineBinds(o: Order)
    requires o.fulfillmentTime.Some? && o.lastMoveTime == o.fulfillmentTime
    requires o.lastValueAtMove == 1.0 && o.decayRate >= 1.0 && o.shelfLife > 0
    ensures DecayDeadline(o, ExpiryModifier) <= o.fulfillmentTime.value + o.shelfLife as real
  {
    var sl := o.shelfLife as real;
    assert DecayDeadline(o, ExpiryModifier) == o.fulfillmentTime.value + sl / o.decayRate;
    assert sl <= sl * o.decayRate;
    assert sl / o.decayRate <= sl;
  }

  /** When the shelf-life cap is the binding term, the scheduled check finds
      the order on its temperature shelf still worth something and takes it. */
  lemma ExpiryAtCapRemovesOrder(k: Kitchen, id: Id)
    requires Inv(k) && id in k.orders && k.orderToShelf[id].TemperatureShelf?
    requires var o := k.orders[id];
             && o.decayRate > 0.0
             && DecayDeadline(o, ExpiryModifier) > o.fulfillmentTime.value + o.shelfLife as real
    ensures var p := PickupOrder(k, id, Expiry(k.orders[id], ExpiryModifier));
            && p.order == Some(k.orders[id])
            && id !in p.kitchen.orders
  {
    var o := k.orders[id];
    assert HeldOrder(k, id);
    ValuePositiveAtCap(o, ExpiryModifier);
  }

  /** `OrderValue` prices by the kind of shelf the order is indexed on: at
      modifier 2 on the overflow shelf and 1 on a temperature shelf, whatever
      modifier that shelf stores. */
  lemma OrderValueByShelf(k: Kitchen, id: Id, t: real)
    requires Inv(k)
    ensures id in k.overflow.orders ==> OrderValue(k, id, t) == Value(k.orders[id], 2, t)
    ensures forall temp :: temp in k.shelves && id in k.shelves[temp].orders ==>
              OrderValue(k, id, t) == Value(k.orders[id], 1, t)
    ensures id in k.orderToShelf && k.orderToShelf[id] == OverflowShelf ==>
              OrderValue(k, id, t) == Value(k.orders[id], 2, t)
    ensures id in k.orderToShelf && k.orderToShelf[id].TemperatureShelf? ==>
              OrderValue(k, id, t) == Value(k.orders[id], 1, t)
  {
  }

  /** A held order is never worth more than 1 from its last move on, and an
      order still indexed to overflow, never moved, not at any time. */
  lemma OrderValueAtMostOne(k: Kitchen, id: Id, t: real)
    requires Inv(k)
    ensures id in k.orders && k.orders[id].lastMoveTime.value <= t ==> OrderValue(k, id, t) <= 1.0
    ensures id in k.orderToShelf && k.orderToShelf[id] == OverflowShelf ==> OrderValue(k, id, t) <= 1.0
  {
    if id in k.orders {
      var o := k.orders[id];
      assert HeldOrder(k, id);
      var m := ValueModifier(k.orderToShelf[id]);
      if o.lastMoveTime.value <= t {
        ValueAtMostBaseline(o, m, t);
      } else if k.orderToShelf[id] == OverflowShelf && o.fulfillmentTime.value <= t {
        ValueAtMostBaseline(o, m, t);
      }
    }
  }

  /** Relocation snapshots the moved order with the overflow shelf's stored
      modifier, 1, while `OrderValue` priced it on overflow at 2. So a
      decaying order gains value by being relocated. */
  lemma RelocationRaisesValue(k: Kitchen, r: Kitchen, id: Id, now: real)
    requires Inv(k) && BuiltModifiers(k) && Relocated(k, r, id, now)
    requires var o := k.orders[id];
             && o.decayRate > 0.0 && InWindow(o, now) && o.lastMoveTime.value < now
             && Value(o, 1, now) > 0.0
    ensures r.orders[id].lastValueAtMove > OrderValue(k, id, now)
    ensures r.orders[id].lastValueAtMove == OrderValue(r, id, now)
  {
    var o := k.orders[id];
    assert HeldOrder(k, id);
    HigherModifierDecaysStrictlyFaster(o, 1, 2, now);
    MoveFromKeepsValue(o, 1, 1, now);
  }

  /** A discarded order leaves the overflow shelf but not the indexes: it
      sits on no shelf, is still indexed to overflow, and a pickup while
      it is worth something still hands it over. */
  lemma DiscardedOrderStaysIndexed(k: Kitchen, r: Kitchen, id: Id, t: real)
    requires Inv(k) && Discarded(k, r, id)
    ensures id in r.orders && r.orderToShelf[id] == OverflowShelf
    ensures ShelvesHolding(r, id) == {}
    ensures OrderValue(r, id, t) > 0.0 ==> PickupOrder(r, id, t).order == Some(k.orders[id])
  {
    OnlyIndexedShelf(k, id, OverflowShelf);
    DiscardKeepsInv(k, r, id);
    assert ShelvesHolding(r, id) <= ShelvesHolding(k, id) - {OverflowShelf};
  }
}

=== FILE: order.dfy ===
/** A single food order and its time-decaying value (model/order.h, model/order.cc).

    Times are `real` seconds on one absolute clock; values are `real`. The
    decay modifier is the integer multiplier a shelf applies to the decay
    rate.
 */
module Orders {
  import opened Common

  type Id = string

  /** The temperature groups, in the order the source enumerates them. */
  datatype Temperature = Unknown | Frozen | Cold | Hot

  datatype Order = Order(
    id: Id,
    name: string,
    temp: Temperature,
    shelfLife: int,          // whole seconds an order may sit on a shelf
    decayRate: real,         // value lost per second, before shelf modifier
    receiptTime: real,
    fulfillmentTime: Option<real>,
    deliveryTime: Option<real>,
    lastValueAtMove: real,   // value baseline, reset by every shelf move
    lastMoveTime: Option<real>)

  const EmptyIdMessage := "Order IDs cannot be empty!"
  const EmptyNameMessage := "Order names cannot be empty!"
  const UnknownTemperatureMessage := "Order temperature group must be specified!"
  const NegativeShelfLifeMessage := "Order shelf life must be non-negative!"
  const NegativeDecayRateMessage := "Order decay rate must be non-negative!"

  /** The fields fixed when the order is constructed agree. */
  ghost predicate SameIdentity(a: Order, b: Order)
  {
    && a.id == b.id && a.name == b.name && a.temp == b.temp
    && a.shelfLife == b.shelfLife && a.decayRate == b.decayRate
    && a.receiptTime == b.receiptTime
  }

  /** As the constructor leaves an order: nothing timed yet, full value. */
  ghost predicate Unprocessed(o: Order)
  {
    && o.fulfillmentTime.None? && o.deliveryTime.None? && o.lastMoveTime.None?
    && o.lastValueAtMove == 1.0
  }

  /** The value baseline lies in [0, 1] and the order does not gain value
      with time: what `CreateOrder` guarantees and every shelf move keeps. */
  ghost predicate ValueBounded(o: Order)
  {
    0.0 <= o.lastValueAtMove <= 1.0 && o.decayRate >= 0.0
  }

  /** The arguments `CreateOrder` accepts. */
  ghost predicate ValidArguments(id: Id, name: string, temp: Temperature, shelfLife: int, decayRate: real)
  {
    id != [] && name != [] && temp != Unknown && shelfLife >= 0 && decayRate >= 0.0
  }

  /** The validating factory: checks the arguments in the source's order and
      throws on the first that fails, otherwise builds an unprocessed order. */
  function CreateOrder(id: Id, name: string, temp: Temperature, shelfLife: int,
                       decayRate: real, receiptTime: real): (r: Result<Order>)
    ensures r.Ok? <==> ValidArguments(id, name, temp, shelfLife, decayRate)
    ensures r.Ok? ==> Unprocessed(r.value) && ValueBounded(r.value)
    ensures r.Ok? ==> r.value.id == id && r.value.name == name && r.value.temp == temp
                      && r.value.shelfLife == shelfLife && r.value.decayRate == decayRate
                      && r.value.receiptTime == receiptTime
    ensures id == [] ==> r == Err(InvalidArgument(EmptyIdMessage))
    ensures id != [] && name == [] ==> r == Err(InvalidArgument(EmptyNameMessage))
  {
    if id == [] then Err(InvalidArgument(EmptyIdMessage))
    else if name == [] then Err(InvalidArgument(EmptyNameMessage))
    else if temp == Unknown then Err(InvalidArgument(UnknownTemperatureMessage))
    else if shelfLife < 0 then Err(InvalidArgument(NegativeShelfLifeMessage))
    else if decayRate < 0.0 then Err(InvalidArgument(NegativeDecayRateMessage))
    else Ok(Order(id, name, temp, shelfLife, decayRate, receiptTime, None, None, 1.0, None))
  }

  /** Cooking is done at `t`: the decay clock starts there. */
  function SetFulfillmentTime(o: Order, t: real): (r: Order)
    ensures r.fulfillmentTime == Some(t) && r.lastMoveTime == Some(t)
    ensures SameIdentity(o, r)
    ensures r.deliveryTime == o.deliveryTime && r.lastValueAtMove == o.lastValueAtMove
  {
    o.(fulfillmentTime := Some(t), lastMoveTime := Some(t))
  }

  /** A courier took the order at `t`. */
  function SetDeliveryTime(o: Order, t: real): (r: Order)
    ensures r.deliveryTime == Some(t)
    ensures SameIdentity(o, r)
    ensures r.fulfillmentTime == o.fulfillmentTime && r.lastMoveTime == o.lastMoveTime
    ensures r.lastValueAtMove == o.lastValueAtMove
  {
    o.(deliveryTime := Some(t))
  }

  /** The orders `Value` is defined for: once fulfilled, the decay clock is
      running and the shelf life is a positive divisor. */
  ghost predicate Valuable(o: Order)
  {
    o.fulfillmentTime.Some? ==> o.shelfLife > 0 && o.lastMoveTime.Some?
  }

  /** Whole seconds elapsed since fulfillment exceed the shelf life. */
  predicate PastShelfLife(o: Order, t: real)
    requires o.fulfillmentTime.Some?
  {
    (t - o.fulfillmentTime.value).Floor > o.shelfLife
  }

  /** The moments at which the linear decay formula applies. */
  predicate InWindow(o: Order, t: real)
  {
    o.fulfillmentTime.Some? && o.fulfillmentTime.value <= t && !PastShelfLife(o, t)
  }

  /** The unclamped linear value: the baseline minus the decay since the last move. */
  function Linear(o: Order, modifier: int, t: real): real
    requires Valuable(o) && o.fulfillmentTime.Some?
  {
    o.lastValueAtMove
      - (o.decayRate * (t - o.lastMoveTime.value) * (modifier as real)) / (o.shelfLife as real)
  }

  /** Value of the order at `t` on a shelf with the given decay modifier:
      nothing before cooking or after the shelf life, otherwise the linear
      decay from the last move, never below zero. */
  function Value(o: Order, modifier: int, t: real): (v: real)
    requires Valuable(o)
    ensures v >= 0.0
    ensures !InWindow(o, t) ==> v == 0.0
  {
    if o.fulfillmentTime.None? || t < o.fulfillmentTime.value then 0.0
    else if PastShelfLife(o, t) then 0.0
    else
      var value := Linear(o, modifier, t);
      if value < 0.0 then 0.0 else value
  }

  /** Snapshot the value on the shelf being left and restart the decay clock. */
  function MoveFrom(o: Order, currentModifier: int, t: real): (r: Order)
    requires Valuable(o)
    ensures Valuable(r)
    ensures SameIdentity(o, r)
    ensures r.fulfillmentTime == o.fulfillmentTime && r.deliveryTime == o.deliveryTime
    ensures r.lastMoveTime == Some(t)
  {
    o.(lastValueAtMove := Value(o, currentModifier, t), lastMoveTime := Some(t))
  }

  /** The latest moment the order can still be worth something: where linear
      decay from the last move reaches zero, capped at fulfillment plus shelf
      life. A zero decay rate (or modifier) never decays, so the cap applies. */
  function Expiry(o: Order, currentModifier: int): (e: real)
    requires o.fulfillmentTime.Some? && o.lastMoveTime.Some?
    ensures e <= o.fulfillmentTime.value + o.shelfLife as real
    ensures o.decayRate * (currentModifier as real) == 0.0 ==> e == o.fulfillmentTime.value + o.shelfLife as real
  {
    var cap := o.fulfillmentTime.value + o.shelfLife as real;
    if o.decayRate * (currentModifier as real) == 0.0 then cap
    else if DecayDeadline(o, currentModifier) < cap then DecayDeadline(o, currentModifier)
    else cap
  }

  /** The linear-decay term of `Expiry`: when the baseline, decaying at the
      given modifier, would reach zero. */
  function DecayDeadline(o: Order, currentModifier: int): real
    requires o.lastMoveTime.Some?
    requires o.decayRate * (currentModifier as real) != 0.0
  {
    o.lastMoveTime.value
      + o.lastValueAtMove * (o.shelfLife as real) / (o.decayRate * (currentModifier as real))
  }
  
  // ---------------------------------------------------------------------------
  // Properties of the valuation
  // ---------------------------------------------------------------------------

  lemma FloorMonotone(x: real, y: real)
    requires x <= y
    ensures x.Floor <= y.Floor
  {
  }

  /** Once past the shelf life, always past it. */
  lemma PastShelfLifeStays(o: Order, t1: real, t2: real)
    requires o.fulfillmentTime.Some? && t1 <= t2 && PastShelfLife(o, t1)
    ensures PastShelfLife(o, t2)
  {
    FloorMonotone(t1 - o.fulfillmentTime.value, t2 - o.fulfillmentTime.value);
  }

  /** With a zero decay rate the order keeps its baseline for exactly its shelf
      life and is worthless outside it. */
  lemma UndecayingValue(o: Order, modifier: int, t: real)
    requires Valuable(o) && o.decayRate == 0.0 && o.lastValueAtMove >= 0.0
    ensures InWindow(o, t) ==> Value(o, modifier, t) == o.lastValueAtMove
    ensures !InWindow(o, t) ==> Value(o, modifier, t) == 0.0
  {
  }

  /** Between moves, on one shelf, value never grows. */
  lemma {:induction false} ValueNonIncreasing(o: Order, modifier: int, t1: real, t2: real)
    requires Valuable(o) && o.fulfillmentTime.Some?
    requires o.decayRate >= 0.0 && modifier >= 0
    requires o.fulfillmentTime.value <= t1 && o.lastMoveTime.value <= t1 && t1 <= t2
    ensures Value(o, modifier, t2) <= Value(o, modifier, t1)
  {
    if PastShelfLife(o, t1) {
      PastShelfLifeStays(o, t1, t2);
    } else if !PastShelfLife(o, t2) {
      var sl := o.shelfLife as real;
      var m := modifier as real;
      var d1 := o.decayRate * (t1 - o.lastMoveTime.value) * m;
      var d2 := o.decayRate * (t2 - o.lastMoveTime.value) * m;
      assert d2 - d1 == o.decayRate * (t2 - t1) * m;
      MulNonNegative(o.decayRate, t2 - t1, m);
      DivMonotone(d1, d2, sl);
      assert Linear(o, modifier, t2) <= Linear(o, modifier, t1);
    }
  }

  /** Between moves the value never exceeds the baseline it restarted from. */
  lemma ValueAtMostBaseline(o: Order, modifier: int, t: real)
    requires Valuable(o) && o.lastValueAtMove >= 0.0
    requires o.decayRate >= 0.0 && modifier >= 0
    requires o.lastMoveTime.Some? && o.lastMoveTime.value <= t
    ensures Value(o, modifier, t) <= o.lastValueAtMove
  {
    if InWindow(o, t) {
      var d := o.decayRate * (t - o.lastMoveTime.value) * (modifier as real);
      MulNonNegative(o.decayRate, t - o.lastMoveTime.value, modifier as real);
      DivMonotone(0.0, d, o.shelfLife as real);
    }
  }

  /** Moving an order that has not moved since it was cooked, off a shelf
      with a non-negative modifier, keeps its baseline in [0, 1]: the
      snapshot is zero before cooking and at most the old baseline after. */
  lemma MoveFromKeepsBound(o: Order, modifier: int, t: real)
    requires Valuable(o) && ValueBounded(o) && modifier >= 0
    requires o.lastMoveTime == o.fulfillmentTime
    ensures ValueBounded(MoveFrom(o, modifier, t))
    ensures MoveFrom(o, modifier, t).lastValueAtMove <= o.lastValueAtMove
  {
    if o.fulfillmentTime.Some? && o.fulfillmentTime.value <= t {
      ValueAtMostBaseline(o, modifier, t);
    }
  }

  /** A shelf with a larger decay modifier never leaves the order worth more. */
  lemma HigherModifierDecaysFaster(o: Order, m1: int, m2: int, t: real)
    requires Valuable(o) && o.decayRate >= 0.0 && 0 <= m1 <= m2
    requires o.lastMoveTime.Some? && o.lastMoveTime.value <= t
    ensures Value(o, m2, t) <= Value(o, m1, t)
  {
    if InWindow(o, t) {
      var age := t - o.lastMoveTime.value;
      MulNonNegative(o.decayRate, age, (m2 - m1) as real);
      assert o.decayRate * age * (m2 as real) - o.decayRate * age * (m1 as real)
          == o.decayRate * age * ((m2 - m1) as real);
      DivMonotone(o.decayRate * age * (m1 as real), o.decayRate * age * (m2 as real), o.shelfLife as real);
      assert Linear(o, m2, t) <= Linear(o, m1, t);
    }
  }

  /** ... and strictly less while the order is still worth something, if it
      decays at all and time has passed since the last move. */
  lemma HigherModifierDecaysStrictlyFaster(o: Order, m1: int, m2: int, t: real)
    requires Valuable(o) && o.decayRate > 0.0 && 0 <= m1 < m2
    requires InWindow(o, t) && o.lastMoveTime.value < t
    requires Value(o, m1, t) > 0.0
    ensures Value(o, m2, t) < Value(o, m1, t)
  {
    var age := t - o.lastMoveTime.value;
    var sl := o.shelfLife as real;
    assert o.decayRate * age > 0.0;
    assert o.decayRate * age * (m2 as real) - o.decayRate * age * (m1 as real)
        == (o.decayRate * age) * ((m2 - m1) as real);
    assert (o.decayRate * age) * ((m2 - m1) as real) > 0.0;
    DivStrictMonotone(o.decayRate * age * (m1 as real), o.decayRate * age * (m2 as real), sl);
  }

  /** Right after a move the order is worth exactly what it was worth on the
      shelf it left, whatever shelf it lands on. */
  lemma MoveFromKeepsValue(o: Order, oldModifier: int, newModifier: int, t: real)
    requires Valuable(o)
    ensures Value(MoveFrom(o, oldModifier, t), newModifier, t) == Value(o, oldModifier, t)
  {
    var r := MoveFrom(o, oldModifier, t);
    if InWindow(o, t) {
      assert InWindow(r, t);
      assert Linear(r, newModifier, t) == r.lastValueAtMove;
    }
  }

  /** After a move the order decays, at the new shelf's modifier, from the
      value it had when it moved. */
  lemma ValueAfterMove(o: Order, oldModifier: int, newModifier: int, t: real, later: real)
    requires Valuable(o) && o.fulfillmentTime.Some? && t <= later && InWindow(o, later)
    ensures var moved := Value(o, oldModifier, t);
            var v := moved - (o.decayRate * (later - t) * (newModifier as real)) / (o.shelfLife as real);
            Value(MoveFrom(o, oldModifier, t), newModifier, later) == if v < 0.0 then 0.0 else v
  {
  }

  /** The decay deadline, when it is the binding term of `Expiry`, is a moment
      at which the order is already worthless. */
  lemma ValueZeroAtDecayDeadline(o: Order, modifier: int)
    requires Valuable(o) && o.fulfillmentTime.Some?
    requires o.decayRate > 0.0 && modifier >= 1
    requires DecayDeadline(o, modifier) <= o.fulfillmentTime.value + o.shelfLife as real
    ensures Expiry(o, modifier) == DecayDeadline(o, modifier)
    ensures Value(o, modifier, Expiry(o, modifier)) == 0.0
  {
    var e := DecayDeadline(o, modifier);
    var rate := o.decayRate * (modifier as real);
    var sl := o.shelfLife as real;
    assert rate > 0.0;
    var ttl := o.lastValueAtMove * sl / rate;
    assert e - o.lastMoveTime.value == ttl;
    assert o.decayRate * ttl * (modifier as real) == rate * ttl;
    assert rate * ttl == o.lastValueAtMove * sl;
    assert Linear(o, modifier, e) == 0.0;
  }

  /** When the shelf-life cap is the binding term of `Expiry`, the order is
      still worth something at that moment. */
  lemma ValuePositiveAtCap(o: Order, modifier: int)
    requires Valuable(o) && o.fulfillmentTime.Some?
    requires o.decayRate > 0.0 && modifier >= 1
    requires DecayDeadline(o, modifier) > o.fulfillmentTime.value + o.shelfLife as real
    ensures Expiry(o, modifier) == o.fulfillmentTime.value + o.shelfLife as real
    ensures Value(o, modifier, Expiry(o, modifier)) > 0.0
  {
    var cap := o.fulfillmentTime.value + o.shelfLife as real;
    var rate := o.decayRate * (modifier as real);
    var sl := o.shelfLife as real;
    assert rate > 0.0;
    assert (cap - o.fulfillmentTime.value).Floor == o.shelfLife;
    assert InWindow(o, cap);
    var age := cap - o.lastMoveTime.value;
    assert age < o.lastValueAtMove * sl / rate;
    assert age * rate < o.lastValueAtMove * sl;
    assert o.decayRate * age * (modifier as real) == age * rate;
    assert (age * rate) / sl < o.lastValueAtMove;
  }

  lemma MulNonNegative(a: real, b: real, c: real)
    requires a >= 0.0 && b >= 0.0 && c >= 0.0
    ensures a * b * c >= 0.0
  {
  }

  lemma DivMonotone(x: real, y: real, d: real)
    requires x <= y && d > 0.0
    ensures x / d <= y / d
  {
  }

  lemma DivStrictMonotone(x: real, y: real, d: real)
    requires x < y && d > 0.0
    ensures x / d < y / d
  {
  }
}

=== FILE: scenarios.dfy ===
/** Concrete runs of the model, following the scenarios of the repository's
    unit tests (model/order_test.cc, model/kitchen_test.cc,
    model/courier_test.cc). Times are seconds after the Unix epoch.
 */
module Scenarios {
  import opened Common
  import opened Orders
  import opened Shelves
  import opened Kitchens
  import opened KitchenInvariant
  import opened Couriers

  /** An order as the tests build it, already validated. */
  function TestOrder(id: Id, name: string, temp: Temperature, shelfLife: int, decayRate: real): (o: Order)
    requires id != [] && name != [] && temp != Unknown && shelfLife >= 0 && decayRate >= 0.0
    ensures CreateOrder(id, name, temp, shelfLife, decayRate, 0.0) == Ok(o)
  {
    Order(id, name, temp, shelfLife, decayRate, 0.0, None, None, 1.0, None)
  }

  /** A kitchen with one place per shelf, overflow included. */
  function Barebones(): (k: Kitchen)
    ensures Shows(k, {}, {}, {}, {}, {})
  {
    NewKitchen(Options("test", 1, map[Hot := 1, Cold := 1, Frozen := 1]))
  }

  // ---------------------------------------------------------------------------
  // Order valuation
  // ---------------------------------------------------------------------------

  lemma InvalidArgumentsRejected()
    ensures CreateOrder("", "cheese pizza", Hot, 300, 0.45, 0.0) == Err(InvalidArgument(EmptyIdMessage))
    ensures CreateOrder("1", "", Hot, 300, 0.45, 0.0) == Err(InvalidArgument(EmptyNameMessage))
    ensures CreateOrder("1", "cheese pizza", Hot, -300, 0.45, 0.0) == Err(InvalidArgument(NegativeShelfLifeMessage))
    ensures CreateOrder("1", "antimatter", Unknown, 300, 0.45, 0.0) == Err(InvalidArgument(UnknownTemperatureMessage))
  {
  }

  lemma ValueBeforeCooking()
    ensures Value(TestOrder("1", "cheese pizza", Hot, 300, 0.45), 1, 600.0) == 0.0
  {
  }

  /** No decay: full value through second 300 of the shelf life, none at 301. */
  lemma ValueUndecaying()
    ensures var o := SetFulfillmentTime(TestOrder("1", "cheese pizza", Hot, 300, 0.0), 0.0);
            Value(o, 1, 300.0) == 1.0 && Value(o, 1, 301.0) == 0.0
  {
    var o := SetFulfillmentTime(TestOrder("1", "cheese pizza", Hot, 300, 0.0), 0.0);
    assert !PastShelfLife(o, 300.0);
    assert PastShelfLife(o, 301.0);
  }

  lemma ValueFuture()
    ensures var o := SetFulfillmentTime(TestOrder("1", "cheese pizza", Hot, 500, 1.0), 0.0);
            Value(o, 1, 0.0) == 1.0 && Value(o, 1, 200.0) == 0.6
  {
    var o := SetFulfillmentTime(TestOrder("1", "cheese pizza", Hot, 500, 1.0), 0.0);
    assert !PastShelfLife(o, 200.0);
  }

  /** Moved onto overflow at 200 s: it reaches zero 150 s later. */
  lemma ValueMovedToOverflow()
    ensures var o := SetFulfillmentTime(TestOrder("1", "cheese pizza", Hot, 500, 1.0), 0.0);
            Value(o, 1, 200.0) == 0.6 && Value(MoveFrom(o, 1, 200.0), 2, 350.0) == 0.0
  {
    var o := SetFulfillmentTime(TestOrder("1", "cheese pizza", Hot, 500, 1.0), 0.0);
    assert !PastShelfLife(o, 200.0);
    assert !PastShelfLife(MoveFrom(o, 1, 200.0), 350.0);
  }

  /** Moved off overflow at 100 s: it reaches zero 300 s later. */
  lemma ValueMovedFromOverflow()
    ensures var o := SetFulfillmentTime(TestOrder("1", "cheese pizza", Hot, 500, 1.0), 0.0);
            Value(o, 2, 100.0) == 0.6 && Value(MoveFrom(o, 2, 100.0), 1, 400.0) == 0.0
  {
    var o := SetFulfillmentTime(TestOrder("1", "cheese pizza", Hot, 500, 1.0), 0.0);
    assert !PastShelfLife(o, 100.0);
    assert !PastShelfLife(MoveFrom(o, 2, 100.0), 400.0);
  }

  /** Long past its shelf life the value is clipped to zero. */
  lemma ValueFarFuture()
    ensures var o := SetFulfillmentTime(TestOrder("1", "cheese pizza", Hot, 300, 0.45), 0.0);
            Value(o, 1, 9001.0) == 0.0
  {
    var o := SetFulfillmentTime(TestOrder("1", "cheese pizza", Hot, 300, 0.45), 0.0);
    assert PastShelfLife(o, 9001.0);
  }

  /** An order cooked at `t0` and left on one shelf, `d` seconds later
      and within its shelf life, has lost `d` seconds of modified decay. */
  lemma FreshValue(o: Order, t0: real, modifier: int, d: real)
    requires Unprocessed(o) && o.shelfLife > 0
    requires 0.0 <= d && d.Floor <= o.shelfLife
    requires o.decayRate * d * (modifier as real) <= o.shelfLife as real
    ensures Value(SetFulfillmentTime(o, t0), modifier, t0 + d)
              == 1.0 - o.decayRate * d * (modifier as real) / (o.shelfLife as real)
  {
    var f := SetFulfillmentTime(o, t0);
    assert !PastShelfLife(f, t0 + d);
    var sl := o.shelfLife as real;
    var loss := o.decayRate * d * (modifier as real);
    var elapsed := (t0 + d) - f.lastMoveTime.value;
    assert elapsed == d;
    assert f.decayRate * elapsed * (modifier as real) == loss;
    assert f.lastValueAtMove == 1.0;
    assert Linear(f, modifier, t0 + d) == f.lastValueAtMove - (f.decayRate * elapsed * (modifier as real)) / (f.shelfLife as real);
    assert f.shelfLife as real == sl;
    assert Linear(f, modifier, t0 + d) == 1.0 - loss / sl;
    assert loss / sl <= 1.0 by {
      assert loss / sl <= sl / sl;
    }
  }

  // ---------------------------------------------------------------------------
  // Kitchen placement, one step per function: each step's contract lists
  // the shelves' contents afterwards
  // ---------------------------------------------------------------------------

  /** Shelf contents and held ids, in the order frozen, cold, hot,
      overflow, held. */
  datatype Contents = Contents(frozen: set<Id>, cold: set<Id>, hot: set<Id>, overflow: set<Id>, held: set<Id>)

  /** Laid out like `Barebones`: the three temperature shelves and
      overflow, one place each. */
  ghost predicate OnePlaceEach(k: Kitchen)
  {
    && k.shelves.Keys == {Frozen, Cold, Hot}
    && (forall t :: t in k.shelves ==> k.shelves[t].maxCapacity == 1)
    && k.overflow.maxCapacity == 1
  }

  function ContentsOf(k: Kitchen): Contents
    requires k.shelves.Keys == {Frozen, Cold, Hot}
  {
    Contents(k.shelves[Frozen].orders, k.shelves[Cold].orders, k.shelves[Hot].orders,
             k.overflow.orders, k.orders.Keys)
  }

  /** A kitchen keeping the invariant, laid out like `Barebones`, with the
      given shelf contents and held ids. */
  ghost predicate Shows(k: Kitchen, frozen: set<Id>, cold: set<Id>, hot: set<Id>, overflow: set<Id>, held: set<Id>)
  {
    Inv(k) && OnePlaceEach(k) && ContentsOf(k) == Contents(frozen, cold, hot, overflow, held)
  }

  /** `shelf` with `id` added when `temp` is the shelf's group. */
  function AddIf(shelf: set<Id>, temp: Temperature, group: Temperature, id: Id): set<Id>
  {
    if temp == group then shelf + {id} else shelf
  }

  /** Taking an order whose shelf has room puts it on that shelf. */
  lemma ShowsOnOwnShelf(k: Kitchen, o: Order, at: real, enum: seq<Id>, choice: nat, now: real,
                        frozen: set<Id>, cold: set<Id>, hot: set<Id>, overflow: set<Id>, held: set<Id>)
    requires Shows(k, frozen, cold, hot, overflow, held)
    requires o.id !in held && o.shelfLife > 0 && ValueBounded(o) && o.temp in k.shelves
    requires IsEnumeration(enum, overflow) && (choice < |enum| || enum == [])
    requires !AtCapacity(k.shelves[o.temp])
    ensures var r := TakeOrder(k, o, at, enum, choice, now).value.kitchen;
            && Shows(r, AddIf(frozen, o.temp, Frozen, o.id), AddIf(cold, o.temp, Cold, o.id),
                     AddIf(hot, o.temp, Hot, o.id), overflow, held + {o.id})
            && r.orders == k.orders[o.id := SetFulfillmentTime(o, at)]
  {
    TakeOrderOnOwnShelf(k, o, at, enum, choice, now);
    ShowsOneMoreOnShelf(k, TakeOrder(k, o, at, enum, choice, now).value.kitchen, o.temp, o.id,
                        SetFulfillmentTime(o, at), frozen, cold, hot, overflow, held);
  }

  lemma ShowsOneMoreOnShelf(k: Kitchen, r: Kitchen, temp: Temperature, id: Id, o: Order,
                            frozen: set<Id>, cold: set<Id>, hot: set<Id>, overflow: set<Id>, held: set<Id>)
    requires Shows(k, frozen, cold, hot, overflow, held) && Inv(r) && temp in k.shelves
    requires r.shelves == k.shelves[temp := k.shelves[temp].(orders := k.shelves[temp].orders + {id})]
    requires r.overflow == k.overflow
    requires r.orders == k.orders[id := o]
    ensures Shows(r, AddIf(frozen, temp, Frozen, id), AddIf(cold, temp, Cold, id),
                  AddIf(hot, temp, Hot, id), overflow, held + {id})
  {
  }

  /** Taking an order whose shelf is full, with room on overflow, puts it
      on overflow. */
  lemma ShowsOnOverflow(k: Kitchen, o: Order, at: real, enum: seq<Id>, choice: nat, now: real,
                        frozen: set<Id>, cold: set<Id>, hot: set<Id>, overflow: set<Id>, held: set<Id>)
    requires Shows(k, frozen, cold, hot, overflow, held)
    requires o.id !in held && o.shelfLife > 0 && ValueBounded(o) && o.temp in k.shelves
    requires IsEnumeration(enum, overflow) && (choice < |enum| || enum == [])
    requires AtCapacity(k.shelves[o.temp]) && overflow == {}
    ensures var r := TakeOrder(k, o, at, enum, choice, now).value.kitchen;
            && Shows(r, frozen, cold, hot, {o.id}, held + {o.id})
            && r.orders == k.orders[o.id := SetFulfillmentTime(o, at)]
  {
    TakeOrderOnOverflow(k, o, at, enum, choice, now);
    ShowsOneMoreOnOverflow(k, TakeOrder(k, o, at, enum, choice, now).value.kitchen,
                           o.id, SetFulfillmentTime(o, at), frozen, cold, hot, held);
  }

  function Tea(): Order { TestOrder("1", "tea", Cold, 300, 0.5) }
  function Soda(): Order { TestOrder("2", "soda", Cold, 300, 0.5) }
  function Burger(): Order { TestOrder("3", "burger", Hot, 300, 0.5) }
  function Pizza(): Order { TestOrder("4", "pizza", Hot, 300, 0.5) }
  function Juice(): Order { TestOrder("3", "juice", Cold, 300, 0.5) }

  /** The first cold order goes on the cold shelf. */
  function TakeTea(k: Kitchen, t0: real): (r: Kitchen)
    requires Shows(k, {}, {}, {}, {}, {})
    ensures Shows(r, {}, {"1"}, {}, {}, {"1"})
    ensures r.orders["1"] == SetFulfillmentTime(Tea(), t0)
  {
    TeaPlacement(k, t0);
    TakeOrder(k, Tea(), t0, [], 0, t0).value.kitchen
  }

  lemma TeaPlacement(k: Kitchen, t0: real)
    requires Shows(k, {}, {}, {}, {}, {})
    ensures IsEnumeration([], k.overflow.orders)
    ensures var r := TakeOrder(k, Tea(), t0, [], 0, t0).value.kitchen;
            Shows(r, {}, {"1"}, {}, {}, {"1"}) && r.orders["1"] == SetFulfillmentTime(Tea(), t0)
  {
    ShowsOnOwnShelf(k, Tea(), t0, [], 0, t0, {}, {}, {}, {}, {});
  }

  /** A second cold order finds the cold shelf full and lands on overflow. */
  function TakeSoda(k: Kitchen, t0: real): (r: Kitchen)
    requires Shows(k, {}, {"1"}, {}, {}, {"1"})
    ensures Shows(r, {}, {"1"}, {}, {"2"}, {"1", "2"})
    ensures r.orders["1"] == k.orders["1"]
    ensures r.orders["2"] == SetFulfillmentTime(Soda(), t0)
  {
    SodaPlacement(k, t0);
    TakeOrder(k, Soda(), t0, [], 0, t0).value.kitchen
  }

  lemma SodaPlacement(k: Kitchen, t0: real)
    requires Shows(k, {}, {"1"}, {}, {}, {"1"})
    ensures "2" !in k.orders && IsEnumeration([], k.overflow.orders)
    ensures var r := TakeOrder(k, Soda(), t0, [], 0, t0).value.kitchen;
            && Shows(r, {}, {"1"}, {}, {"2"}, {"1", "2"})
            && r.orders["1"] == k.orders["1"]
            && r.orders["2"] == SetFulfillmentTime(Soda(), t0)
  {
    ShowsOnOverflow(k, Soda(), t0, [], 0, t0, {}, {"1"}, {}, {}, {"1"});
  }

  /** Picking up the tea as soon as it is cooked frees the cold shelf. */
  function PickUpTea(k: Kitchen, t0: real): (r: Kitchen)
    requires Shows(k, {}, {"1"}, {}, {"2"}, {"1", "2"})
    requires k.orders["1"] == SetFulfillmentTime(Tea(), t0)
    ensures Shows(r, {}, {}, {}, {"2"}, {"2"})
    ensures r.orders["2"] == k.orders["2"]
  {
    TeaPickup(k, t0);
    PickupOrder(k, "1", t0).kitchen
  }

  lemma TeaPickup(k: Kitchen, t0: real)
    requires Shows(k, {}, {"1"}, {}, {"2"}, {"1", "2"})
    requires k.orders["1"] == SetFulfillmentTime(Tea(), t0)
    ensures PickupReady(k, "1")
    ensures var p := PickupOrder(k, "1", t0);
            && p.order == Some(k.orders["1"])
            && Shows(p.kitchen, {}, {}, {}, {"2"}, {"2"})
            && p.kitchen.orders["2"] == k.orders["2"]
  {
    assert HeldOrder(k, "1");
    assert k.orderToShelf["1"] == TemperatureShelf(Cold);
    FreshValue(Tea(), t0, 1, 0.0);
    PickupOrderKeepsInv(k, "1", t0);
  }

  function TakeBurger(k: Kitchen, t0: real): (r: Kitchen)
    requires Shows(k, {}, {}, {}, {"2"}, {"2"})
    ensures Shows(r, {}, {}, {"3"}, {"2"}, {"2", "3"})
    ensures r.orders["2"] == k.orders["2"]
  {
    BurgerPlacement(k, t0);
    TakeOrder(k, Burger(), t0, ["2"], 0, t0).value.kitchen
  }

  lemma BurgerPlacement(k: Kitchen, t0: real)
    requires Shows(k, {}, {}, {}, {"2"}, {"2"})
    ensures "3" !in k.orders && IsEnumeration(["2"], k.overflow.orders)
    ensures var r := TakeOrder(k, Burger(), t0, ["2"], 0, t0).value.kitchen;
            Shows(r, {}, {}, {"3"}, {"2"}, {"2", "3"}) && r.orders["2"] == k.orders["2"]
  {
    assert IsEnumeration(["2"], k.overflow.orders);
    ShowsOnOwnShelf(k, Burger(), t0, ["2"], 0, t0, {}, {}, {}, {"2"}, {"2"});
  }

  /** Taking an order when its shelf is full and overflow holds only
      `moved`, whose own shelf is open: `moved` goes to its shelf and the
      new order to overflow. */
  lemma ShowsAfterRelocation(k: Kitchen, o: Order, at: real, moved: Id, now: real,
                             frozen: set<Id>, cold: set<Id>, hot: set<Id>, held: set<Id>,
                             frozen': set<Id>, cold': set<Id>, hot': set<Id>, held': set<Id>)
    requires Shows(k, frozen, cold, hot, {moved}, held) && Movable(k, moved)
    requires o.id !in held && o.shelfLife > 0 && ValueBounded(o) && o.temp in k.shelves && AtCapacity(k.shelves[o.temp])
    requires var temp := k.orders[moved].temp;
             && frozen' == AddIf(frozen, temp, Frozen, moved)
             && cold' == AddIf(cold, temp, Cold, moved)
             && hot' == AddIf(hot, temp, Hot, moved)
             && held' == held + {o.id}
    ensures Shows(TakeOrder(k, o, at, [moved], 0, now).value.kitchen, frozen', cold', hot', {o.id}, held')
  {
    ShowsRelocation(k, moved, now, frozen, cold, hot, held);
    ShowsAfterRoom(k, o, at, [moved], 0, now, frozen, cold, hot, {moved}, held, frozen', cold', hot', held);
  }

  /** Taking an order when its shelf is full and overflow holds only
      `dropped`, whose own shelf is full too: `dropped` leaves overflow
      and the new order takes its place. */
  lemma ShowsAfterDiscard(k: Kitchen, o: Order, at: real, dropped: Id, now: real,
                          frozen: set<Id>, cold: set<Id>, hot: set<Id>, held: set<Id>)
    requires Shows(k, frozen, cold, hot, {dropped}, held) && !Movable(k, dropped)
    requires o.id !in held && o.shelfLife > 0 && ValueBounded(o) && o.temp in k.shelves && AtCapacity(k.shelves[o.temp])
    ensures Shows(TakeOrder(k, o, at, [dropped], 0, now).value.kitchen, frozen, cold, hot, {o.id}, held + {o.id})
  {
    ShowsDiscard(k, dropped, now, frozen, cold, hot, held);
    ShowsAfterRoom(k, o, at, [dropped], 0, now, frozen, cold, hot, {dropped}, held, frozen, cold, hot, held);
  }

  /** With the moved order's own shelf open, making room on a full
      overflow holding only that order puts it on its shelf. */
  lemma ShowsRelocation(k: Kitchen, moved: Id, now: real,
                        frozen: set<Id>, cold: set<Id>, hot: set<Id>, held: set<Id>)
    requires Shows(k, frozen, cold, hot, {moved}, held) && Movable(k, moved)
    ensures var temp := k.orders[moved].temp;
            Shows(MakeOverflowRoom(k, [moved], 0, now), AddIf(frozen, temp, Frozen, moved),
                  AddIf(cold, temp, Cold, moved), AddIf(hot, temp, Hot, moved), {}, held)
  {
    var room := MakeOverflowRoom(k, [moved], 0, now);
    assert Relocated(k, room, moved, now);
    MakeOverflowRoomKeepsInv(k, [moved], 0, now);
  }

  /** With the dropped order's own shelf full, making room on a full
      overflow holding only that order drops it from overflow alone. */
  lemma ShowsDiscard(k: Kitchen, dropped: Id, now: real,
                     frozen: set<Id>, cold: set<Id>, hot: set<Id>, held: set<Id>)
    requires Shows(k, frozen, cold, hot, {dropped}, held) && !Movable(k, dropped)
    ensures Shows(MakeOverflowRoom(k, [dropped], 0, now), frozen, cold, hot, {}, held)
  {
    assert !AnyMovable(k);
    MakeOverflowRoomKeepsInv(k, [dropped], 0, now);
  }

  /** Taking an order when both its shelf and overflow are full leaves it
      alone on overflow, next to whatever making room left on the shelves. */
  lemma ShowsAfterRoom(k: Kitchen, o: Order, at: real, enum: seq<Id>, choice: nat, now: real,
                       frozen: set<Id>, cold: set<Id>, hot: set<Id>, overflow: set<Id>, held: set<Id>,
                       frozen': set<Id>, cold': set<Id>, hot': set<Id>, held': set<Id>)
    requires Shows(k, frozen, cold, hot, overflow, held)
    requires o.id !in held && o.shelfLife > 0 && ValueBounded(o) && o.temp in k.shelves && AtCapacity(k.shelves[o.temp])
    requires overflow != {} && IsEnumeration(enum, overflow) && choice < |enum|
    requires Shows(MakeOverflowRoom(k, enum, choice, now), frozen', cold', hot', {}, held')
    ensures Shows(TakeOrder(k, o, at, enum, choice, now).value.kitchen, frozen', cold', hot', {o.id}, held' + {o.id})
  {
    TakeOrderAfterRoom(k, o, at, enum, choice, now);
    ShowsOneMoreOnOverflow(MakeOverflowRoom(k, enum, choice, now), TakeOrder(k, o, at, enum, choice, now).value.kitchen,
                           o.id, SetFulfillmentTime(o, at), frozen', cold', hot', held');
  }

  lemma ShowsOneMoreOnOverflow(room: Kitchen, r: Kitchen, id: Id, o: Order,
                               frozen: set<Id>, cold: set<Id>, hot: set<Id>, held: set<Id>)
    requires Shows(room, frozen, cold, hot, {}, held) && Inv(r)
    requires r.shelves == room.shelves
    requires r.overflow == room.overflow.(orders := room.overflow.orders + {id})
    requires r.orders == room.orders[id := o]
    ensures Shows(r, frozen, cold, hot, {id}, held + {id})
  {
  }

  /** Hot shelf and overflow full: the cold order on overflow can go back
      to the open cold shelf, which makes room for the pizza. */
  function TakePizza(k: Kitchen, t0: real): (r: Kitchen)
    requires Shows(k, {}, {}, {"3"}, {"2"}, {"2", "3"})
    requires k.orders["2"].temp == Cold
    ensures Shows(r, {}, {"2"}, {"3"}, {"4"}, {"2", "3", "4"})
  {
    PizzaPlacement(k, t0);
    TakeOrder(k, Pizza(), t0, ["2"], 0, t0).value.kitchen
  }

  lemma PizzaPlacement(k: Kitchen, t0: real)
    requires Shows(k, {}, {}, {"3"}, {"2"}, {"2", "3"})
    requires k.orders["2"].temp == Cold
    ensures Shows(TakeOrder(k, Pizza(), t0, ["2"], 0, t0).value.kitchen, {}, {"2"}, {"3"}, {"4"}, {"2", "3", "4"})
  {
    assert Movable(k, "2");
    ShowsAfterRelocation(k, Pizza(), t0, "2", t0, {}, {}, {"3"}, {"2", "3"}, {}, {"2"}, {"3"}, {"2", "3", "4"});
  }

  /** Cold shelf and overflow full of cold orders: nothing can move, so the
      overflowed order is discarded for the juice, yet stays held. */
  function TakeJuice(k: Kitchen, t0: real): (r: Kitchen)
    requires Shows(k, {}, {"1"}, {}, {"2"}, {"1", "2"})
    requires k.orders["2"].temp == Cold
    ensures Shows(r, {}, {"1"}, {}, {"3"}, {"1", "2", "3"})
  {
    JuicePlacement(k, t0);
    TakeOrder(k, Juice(), t0, ["2"], 0, t0).value.kitchen
  }

  lemma JuicePlacement(k: Kitchen, t0: real)
    requires Shows(k, {}, {"1"}, {}, {"2"}, {"1", "2"})
    requires k.orders["2"].temp == Cold
    ensures Shows(TakeOrder(k, Juice(), t0, ["2"], 0, t0).value.kitchen, {}, {"1"}, {}, {"3"}, {"1", "2", "3"})
  {
    assert !Movable(k, "2");
    ShowsAfterDiscard(k, Juice(), t0, "2", t0, {}, {"1"}, {}, {"1", "2"});
  }

  /** Tea, soda, pickup of the tea, burger, pizza: the soda is relocated
      from overflow to the cold shelf instead of being discarded. */
  lemma OverflowRoomMade(t0: real)
    ensures var k := TakeSoda(TakeTea(Barebones(), t0), t0);
            Shows(TakePizza(TakeBurger(PickUpTea(k, t0), t0), t0), {}, {"2"}, {"3"}, {"4"}, {"2", "3", "4"})
  {
  }

  /** Tea, soda, juice: the soda is dropped from overflow for the juice. */
  lemma OverflowDiscarded(t0: real)
    ensures var k := TakeSoda(TakeTea(Barebones(), t0), t0);
            Shows(TakeJuice(k, t0), {}, {"1"}, {}, {"3"}, {"1", "2", "3"})
  {
  }

  function IceCream(): Order { TestOrder("1", "ice cream", Frozen, 300, 1.0) }
  function Cannoli(): Order { TestOrder("2", "cannoli", Frozen, 300, 1.0) }

  function TakeIceCream(k: Kitchen, t0: real): (r: Kitchen)
    requires Shows(k, {}, {}, {}, {}, {})
    ensures Shows(r, {"1"}, {}, {}, {}, {"1"})
    ensures r.orders["1"] == SetFulfillmentTime(IceCream(), t0)
  {
    IceCreamPlacement(k, t0);
    TakeOrder(k, IceCream(), t0, [], 0, t0).value.kitchen
  }

  lemma IceCreamPlacement(k: Kitchen, t0: real)
    requires Shows(k, {}, {}, {}, {}, {})
    ensures IsEnumeration([], k.overflow.orders)
    ensures var r := TakeOrder(k, IceCream(), t0, [], 0, t0).value.kitchen;
            Shows(r, {"1"}, {}, {}, {}, {"1"}) && r.orders["1"] == SetFulfillmentTime(IceCream(), t0)
  {
    ShowsOnOwnShelf(k, IceCream(), t0, [], 0, t0, {}, {}, {}, {}, {});
  }

  /** A second frozen order goes to overflow. */
  function TakeCannoli(k: Kitchen, t0: real): (r: Kitchen)
    requires Shows(k, {"1"}, {}, {}, {}, {"1"})
    ensures Shows(r, {"1"}, {}, {}, {"2"}, {"1", "2"})
    ensures r.orders["1"] == k.orders["1"]
    ensures r.orders["2"] == SetFulfillmentTime(Cannoli(), t0)
  {
    CannoliPlacement(k, t0);
    TakeOrder(k, Cannoli(), t0, [], 0, t0).value.kitchen
  }

  lemma CannoliPlacement(k: Kitchen, t0: real)
    requires Shows(k, {"1"}, {}, {}, {}, {"1"})
    ensures "2" !in k.orders && IsEnumeration([], k.overflow.orders)
    ensures var r := TakeOrder(k, Cannoli(), t0, [], 0, t0).value.kitchen;
            && Shows(r, {"1"}, {}, {}, {"2"}, {"1", "2"})
            && r.orders["1"] == k.orders["1"]
            && r.orders["2"] == SetFulfillmentTime(Cannoli(), t0)
  {
    ShowsOnOverflow(k, Cannoli(), t0, [], 0, t0, {"1"}, {}, {}, {}, {"1"});
  }

  /** 100 s after fulfillment the overflow order has lost twice as much. */
  lemma OrderValueOverflow(k: Kitchen, t0: real)
    requires Shows(k, {"1"}, {}, {}, {"2"}, {"1", "2"})
    requires k.orders["1"] == SetFulfillmentTime(IceCream(), t0)
    requires k.orders["2"] == SetFulfillmentTime(Cannoli(), t0)
    ensures OrderValue(k, "1", t0 + 100.0) == (300.0 - 100.0) / 300.0
    ensures OrderValue(k, "2", t0 + 100.0) == (300.0 - 2.0 * 100.0) / 300.0
  {
    assert k.orderToShelf["1"] == TemperatureShelf(Frozen);
    assert k.orderToShelf["2"] == OverflowShelf;
    FreshValue(IceCream(), t0, 1, 100.0);
    FreshValue(Cannoli(), t0, 2, 100.0);
  }

  /** Ice cream then cannoli on a kitchen with one place per shelf. */
  lemma FrozenPairValues(t0: real)
    ensures var k := TakeCannoli(TakeIceCream(Barebones(), t0), t0);
            && OrderValue(k, "1", t0 + 100.0) == (300.0 - 100.0) / 300.0
            && OrderValue(k, "2", t0 + 100.0) == (300.0 - 2.0 * 100.0) / 300.0
  {
    OrderValueOverflow(TakeCannoli(TakeIceCream(Barebones(), t0), t0), t0);
  }

  // ---------------------------------------------------------------------------
  // Default kitchen and courier
  // ---------------------------------------------------------------------------

  /** The order of the fulfillment-time test: cold ice cream. */
  function ColdIceCream(): Order { TestOrder("1", "ice cream", Cold, 300, 0.5) }
  /** The order of the expiry test: frozen ice cream. */
  function FrozenIceCream(): Order { TestOrder("1", "ice cream", Frozen, 300, 0.5) }
  /** The order of the courier test: hot cheese pizza. */
  function CheesePizza(): Order { TestOrder("1", "cheese pizza", Hot, 300, 0.5) }

  /** One order of a known temperature taken into a default kitchen: it is
      fulfilled at `t0` and sits on its own temperature's shelf. */
  function TakeIntoDefaultKitchen(o: Order, t0: real): (r: Taken)
    requires o.temp != Unknown && o.shelfLife > 0 && ValueBounded(o)
    ensures Inv(r.kitchen)
    ensures r.order == SetFulfillmentTime(o, t0)
    ensures o.id in r.kitchen.orders && r.kitchen.orders[o.id] == r.order
    ensures r.kitchen.orderToShelf[o.id] == TemperatureShelf(o.temp)
  {
    assert o.temp.Frozen? || o.temp.Cold? || o.temp.Hot?;
    assert o.temp in DefaultOptions("test").tempToCapacity;
    DefaultKitchenPlacement(NewKitchen(DefaultOptions("test")), o, t0);
    TakeOrder(NewKitchen(DefaultOptions("test")), o, t0, [], 0, t0).value
  }

  lemma DefaultKitchenPlacement(k: Kitchen, o: Order, t0: real)
    requires Inv(k) && k.orders == map[] && k.overflow.orders == {} && k.overflow.maxCapacity >= 1
    requires o.temp in k.shelves && k.shelves[o.temp].orders == {} && k.shelves[o.temp].maxCapacity >= 1
    requires o.shelfLife > 0 && ValueBounded(o)
    ensures IsEnumeration([], k.overflow.orders)
    ensures var r := TakeOrder(k, o, t0, [], 0, t0);
            && r.Ok? && Inv(r.value.kitchen) && r.value.order == SetFulfillmentTime(o, t0)
            && o.id in r.value.kitchen.orders && r.value.kitchen.orders[o.id] == r.value.order
            && r.value.kitchen.orderToShelf[o.id] == TemperatureShelf(o.temp)
  {
    TakeOrderOnOwnShelf(k, o, t0, [], 0, t0);
  }

  /** Taking the cold ice cream records the time it was cooked, and it goes
      on the cold shelf. */
  lemma FulfillmentTimeRecorded(t0: real)
    ensures var taken := TakeIntoDefaultKitchen(ColdIceCream(), t0);
            && taken.order.fulfillmentTime == Some(t0)
            && taken.kitchen.orderToShelf["1"] == TemperatureShelf(Cold)
  {
  }

  /** Half a century on the frozen shelf leaves the ice cream worth nothing. */
  lemma OrderValueExpired(t0: real)
    ensures OrderValue(TakeIntoDefaultKitchen(FrozenIceCream(), t0).kitchen, "1", t0 + 1600000000.0) == 0.0
  {
    var k := TakeIntoDefaultKitchen(FrozenIceCream(), t0).kitchen;
    assert PastShelfLife(k.orders["1"], t0 + 1600000000.0);
  }

  /** A courier collecting the pizza 60 s after it was cooked delivers it,
      stamped with the pickup time, and is free again. */
  lemma DeliveryTimeRecorded(k: Kitchen, t0: real)
    requires Inv(k) && "1" in k.orders && k.orders["1"] == SetFulfillmentTime(CheesePizza(), t0)
    requires k.orderToShelf["1"] == TemperatureShelf(Hot)
    ensures var courier := AcceptOrder(NewCourier, OrderInfo("1", 0)).courier;
            var delivered := PickupCurrentOrder(courier, map[0 := k], t0 + 60.0);
            && delivered.Ok?
            && delivered.value.order.Some?
            && delivered.value.order.value.deliveryTime == Some(t0 + 60.0)
            && delivered.value.courier.current.None?
  {
    assert HeldOrder(k, "1");
    FreshValue(CheesePizza(), t0, 1, 60.0);
  }

  /** The courier test end to end: the cheese pizza taken into a default
      kitchen and collected 60 s later. */
  lemma CourierDeliversPizza(t0: real)
    ensures var k := TakeIntoDefaultKitchen(CheesePizza(), t0).kitchen;
            var courier := AcceptOrder(NewCourier, OrderInfo("1", 0)).courier;
            var delivered := PickupCurrentOrder(courier, map[0 := k], t0 + 60.0);
            && delivered.Ok?
            && delivered.value.order.Some?
            && delivered.value.order.value.deliveryTime == Some(t0 + 60.0)
  {
    DeliveryTimeRecorded(TakeIntoDefaultKitchen(CheesePizza(), t0).kitchen, t0);
  }
}

=== FILE: shelf.dfy ===
/** A capacity-bounded shelf of orders (class `Kitchen::Shelf`, model/kitchen.h).

    A shelf holds order ids; the kitchen owns the orders themselves.
 */
module Shelves {
  import opened Orders

  datatype Shelf = Shelf(maxCapacity: nat, decayModifier: int, orders: set<Id>)

  /** An empty shelf, as the constructor builds it. */
  function NewShelf(maxCapacity: nat, decayModifier: int): (s: Shelf)
    ensures s.orders == {} && WithinCapacity(s)
    ensures s.maxCapacity == maxCapacity && s.decayModifier == decayModifier
  {
    Shelf(maxCapacity, decayModifier, {})
  }

  predicate AtCapacity(s: Shelf)
  {
    |s.orders| >= s.maxCapacity
  }

  /** The shelf invariant: never more orders than places. */
  ghost predicate WithinCapacity(s: Shelf)
  {
    |s.orders| <= s.maxCapacity
  }

  /** Capacity and decay modifier are set once, at construction. */
  ghost predicate SameConfig(a: Shelf, b: Shelf)
  {
    a.maxCapacity == b.maxCapacity && a.decayModifier == b.decayModifier
  }

  datatype AddOutcome = AddOutcome(shelf: Shelf, added: bool)

  /** Adds the order unless the shelf is full; reports whether it did. */
  function AddOrder(s: Shelf, id: Id): (r: AddOutcome)
    ensures r.added <==> |s.orders| < s.maxCapacity
    ensures r.added ==> r.shelf.orders == s.orders + {id}
    ensures !r.added ==> r.shelf == s
    ensures SameConfig(s, r.shelf)
    ensures WithinCapacity(s) ==> WithinCapacity(r.shelf)
  {
    if AtCapacity(s) then AddOutcome(s, false)
    else AddOutcome(s.(orders := s.orders + {id}), true)
  }

  /** Removes the order if present; a no-op otherwise. */
  function RemoveOrder(s: Shelf, id: Id): (r: Shelf)
    ensures id !in r.orders
    ensures forall x :: x != id ==> (x in r.orders <==> x in s.orders)
    ensures id in s.orders ==> |r.orders| == |s.orders| - 1
    ensures id !in s.orders ==> r == s
    ensures SameConfig(s, r)
    ensures WithinCapacity(s) ==> WithinCapacity(r)
  {
    s.(orders := s.orders - {id})
  }

  lemma RemoveOrderIdempotent(s: Shelf, id: Id)
    ensures RemoveOrder(RemoveOrder(s, id), id) == RemoveOrder(s, id)
  {
  }

  /** Adding an order already on a shelf that has room changes nothing but
      still reports success. */
  lemma AddPresentOrder(s: Shelf, id: Id)
    requires id in s.orders && |s.orders| < s.maxCapacity
    ensures AddOrder(s, id) == AddOutcome(s, true)
  {
    assert s.orders + {id} == s.orders;
  }

  /** A sequence of shelf operations, as a caller may issue them. */
  datatype ShelfOp = Add(id: Id) | Remove(id: Id)

  function Apply(s: Shelf, op: ShelfOp): Shelf
  {
    match op
    case Add(id) => AddOrder(s, id).shelf
    case Remove(id) => RemoveOrder(s, id)
  }

  function ApplyAll(s: Shelf, ops: seq<ShelfOp>): Shelf
    decreases |ops|
  {
    if ops == [] then s else ApplyAll(Apply(s, ops[0]), ops[1..])
  }

  /** No sequence of adds and removes overfills a shelf or changes its
      capacity or decay modifier. */
  lemma {:induction false} ApplyAllKeepsShelfInvariant(s: Shelf, ops: seq<ShelfOp>)
    requires WithinCapacity(s)
    ensures WithinCapacity(ApplyAll(s, ops))
    ensures SameConfig(s, ApplyAll(s, ops))
    decreases |ops|
  {
    if ops != [] {
      ApplyAllKeepsShelfInvariant(Apply(s, ops[0]), ops[1..]);
    }
  }
}

=== FILE: simulation.dfy ===
/** The ingestion side of the simulation (kitchen_sim_lib.h, kitchen_sim_lib.cc):
    temperature names, the kitchen size presets, validating a batch of order
    records under the skip-or-abort policy, and the courier's arrival delay.
 */
module Simulation {
  import opened Common
  import opened Orders
  import opened Kitchens

  /** Temperature group named in an order record; exact lower-case words only. */
  function FromString(s: string): (t: Temperature)
    ensures t == Hot <==> s == "hot"
    ensures t == Cold <==> s == "cold"
    ensures t == Frozen <==> s == "frozen"
    ensures t == Unknown <==> s != "hot" && s != "cold" && s != "frozen"
  {
    if s == "hot" then Hot
    else if s == "cold" then Cold
    else if s == "frozen" then Frozen
    else Unknown
  }

  /** The kitchen configuration for a size flag: "SMALL" or, for any other
      value, the large preset. */
  function KitchenOptions(name: string, size: string): (opts: Options)
    ensures opts.name == name
    ensures opts.tempToCapacity.Keys == {Frozen, Cold, Hot}
    ensures size == "SMALL" ==>
              opts.overflowCapacity == 6 && forall t :: t in opts.tempToCapacity ==> opts.tempToCapacity[t] == 4
    ensures size != "SMALL" ==>
              opts.overflowCapacity == 15 && forall t :: t in opts.tempToCapacity ==> opts.tempToCapacity[t] == 10
  {
    if size == "SMALL" then Options(name, 6, map[Hot := 4, Cold := 4, Frozen := 4])
    else Options(name, 15, map[Hot := 10, Cold := 10, Frozen := 10])
  }

  /** The simulation's kitchen: empty, with a shelf for every temperature
      group an order can have and an overflow shelf with room. */
  function CreateKitchen(name: string, size: string): (k: Kitchen)
    ensures Inv(k) && BuiltModifiers(k)
    ensures k.shelves.Keys == {Frozen, Cold, Hot}
    ensures k.overflow.maxCapacity >= 1
    ensures k.orders == map[] && k.overflow.orders == {}
  {
    NewKitchen(KitchenOptions(name, size))
  }

  /** Every order `CreateOrder` accepts is routed to a shelf by either
      preset, so `TakeOrder` on such a kitchen never throws. */
  lemma PresetsCoverCreatedOrders(name: string, size: string, k: Kitchen, o: Order,
                                  at: real, enum: seq<Id>, choice: nat, now: real)
    requires SameLayout(CreateKitchen(name, size), k)
    requires CreateOrder(o.id, o.name, o.temp, o.shelfLife, o.decayRate, o.receiptTime).Ok?
    requires Inv(k) && o.id !in k.orders && o.shelfLife > 0
    requires IsEnumeration(enum, k.overflow.orders)
    requires choice < |enum| || enum == []
    ensures k.overflow.maxCapacity >= 1
    ensures TakeOrder(k, o, at, enum, choice, now).Ok?
  {
  }

  /** One entry of the order batch, before validation. */
  datatype OrderRecord = OrderRecord(id: string, name: string, temp: string, shelfLife: int, decayRate: real)

  /** The validation `CreateOrder` applies to a record. */
  function CreateFromRecord(rec: OrderRecord, receiptTime: real): Result<Order>
  {
    CreateOrder(rec.id, rec.name, FromString(rec.temp), rec.shelfLife, rec.decayRate, receiptTime)
  }

  ghost predicate ValidRecord(rec: OrderRecord)
  {
    ValidArguments(rec.id, rec.name, FromString(rec.temp), rec.shelfLife, rec.decayRate)
  }

  /** A record naming a temperature other than the three lower-case words
      is rejected. */
  lemma UnknownTemperatureRejected(rec: OrderRecord, receiptTime: real)
    requires rec.temp != "hot" && rec.temp != "cold" && rec.temp != "frozen"
    ensures CreateFromRecord(rec, receiptTime).Err?
    ensures !ValidRecord(rec)
  {
  }

  /** The orders a batch yields when invalid records are skipped: the valid
      ones among the first `n`, in input order. */
  ghost function ValidPrefix(records: seq<OrderRecord>, clock: seq<real>, n: nat): seq<Order>
    requires n <= |records| == |clock|
  {
    if n == 0 then []
    else
      ValidPrefix(records, clock, n - 1)
        + (if ValidRecord(records[n - 1])
           then [Order(records[n - 1].id, records[n - 1].name, FromString(records[n - 1].temp),
                       records[n - 1].shelfLife, records[n - 1].decayRate, clock[n - 1],
                       None, None, 1.0, None)]
           else [])
  }

  /** Position of the first invalid record, or `|records|` when all are valid. */
  ghost function FirstInvalid(records: seq<OrderRecord>): (i: nat)
    ensures i <= |records|
    ensures forall j :: 0 <= j < i ==> ValidRecord(records[j])
    ensures i < |records| ==> !ValidRecord(records[i])
    decreases |records|
  {
    if records == [] || !ValidRecord(records[0]) then 0
    else 1 + FirstInvalid(records[1..])
  }

  /** Builds the order list handed to the simulation run. `clock[i]` is the
      time read when record `i` is created. With `continueAfterInvalid`
      invalid records are skipped; without it the first invalid record
      aborts the whole batch with its validation error. */
  method IngestOrders(records: seq<OrderRecord>, clock: seq<real>, continueAfterInvalid: bool)
    returns (r: Result<seq<Order>>)
    requires |clock| == |records|
    ensures r == if continueAfterInvalid || FirstInvalid(records) == |records|
                 then Ok(ValidPrefix(records, clock, |records|))
                 else Err(CreateFromRecord(records[FirstInvalid(records)], clock[FirstInvalid(records)]).error)
  {
    var orders: seq<Order> := [];
    var i := 0;
    while i < |records|
      invariant 0 <= i <= |records|
      invariant orders == ValidPrefix(records, clock, i)
      invariant !continueAfterInvalid ==> i <= FirstInvalid(records)
    {
      var created := CreateFromRecord(records[i], clock[i]);
      if created.Ok? {
        orders := orders + [created.value];
      } else if !continueAfterInvalid {
        return Err(created.error);
      }
      i := i + 1;
    }
    return Ok(orders);
  }

  /** Skipping invalid records keeps exactly the valid ones: every order
      passed on is unprocessed and carries a record's validated fields. */
  lemma {:induction false} ValidPrefixOrdersAreValid(records: seq<OrderRecord>, clock: seq<real>, n: nat)
    requires n <= |records| == |clock|
    ensures |ValidPrefix(records, clock, n)| <= n
    ensures forall o :: o in ValidPrefix(records, clock, n) ==>
              Unprocessed(o) && ValidArguments(o.id, o.name, o.temp, o.shelfLife, o.decayRate)
  {
    if n > 0 {
      ValidPrefixOrdersAreValid(records, clock, n - 1);
    }
  }

  const MinCourierDelay := 2
  const MaxCourierDelay := 6

  /** The courier arrives a whole number of seconds, drawn uniformly from
      [2, 6], after `now`; `draw` is that draw. */
  function CourierArrivalTime(now: real, draw: int): (t: real)
    requires MinCourierDelay <= draw <= MaxCourierDelay
    ensures MinCourierDelay as real <= t - now <= MaxCourierDelay as real
    ensures (t - now).Floor as real == t - now
  {
    now + draw as real
  }
}
